=== FILE: README.md ===
# Tardis download service: job lifecycle model

A Dafny model of the job-lifecycle core of the Tardis download service.
The service is an HTTP API that accepts download requests, records each one
as a job, and runs each job in the background. A run moves the job through
PENDING, RUNNING and COMPLETED or FAILED, and sends chat notifications
along the way.

The model covers six parts, one module each:

- `Models`: the `JobStatus` vocabulary and the request and response records.
- `Config`: the settings the core reads and the allow-list check `is_user_allowed`.
- `Database`: the job store, with `create_job`, `get_job`, `get_all_jobs`
  and `update_job_status`. The relational store is a map from id to row.
  Timestamps come from a logical clock kept in the store; every stamping
  write advances it.
- `Notifier`: symbol-list rendering, error truncation, the three
  notification templates, and `send_message` as an abstract delivery
  outcome. A `Notice` value records which template a notification uses
  and with which fields; its `Text` renders the message.
- `Downloader`: the worker `download_data`, modelled as a sequential run.
  The status writes, the directory creation, the transfer and the chat
  transport are abstract outcomes collected in `Effects`. A run returns
  three things:
  - the final store;
  - the trace of calls it made, in which each notification is recorded as
    its `Notice`;
  - the exception that escapes the worker, if any.
- `Api`: the request gate (`verify_user`, then `verify_api_token`) and the
  logic of the four job endpoints. Each handler returns its payload or the
  HTTP error it raises (400, 401, 403, 404 or 500).

`Text` models the Python string operations the core relies on: `str.split`,
`str.strip` with Python's whitespace set, `str.join`, and `str()` of an
integer. `Base` holds `Option`, `Result`, `Outcome` and `Call`. `Scenarios`
proves whole-service scenarios: a submission followed by its run, and reads
against a populated store.

Two behaviours of the code are kept as written, and proved:

- The completion notice computes its duration from the job as read *before*
  the RUNNING write (`FreshJobHasNoDuration`). A job submitted through the
  API has no start time at that point, so its completion notice never shows
  a duration.
- An exception raised after the COMPLETED write still runs the failure
  branch (`CompletedThenFailed`). This happens when the completion notice
  raises something other than a `TelegramError`. When the FAILED write
  then commits, the job ends FAILED, with its completion time stamped a
  second time. When that write raises too, the job stays COMPLETED, no
  failure notice is sent, and the write's error escapes the worker
  (`CompletedStaysCompleted`).

Four properties one might expect of this lifecycle do not hold in the
code. The model follows the code:

- `update_job_status` writes any status over any other. There is no
  monotonicity check (`AnyStatusIsWritten`).
- `error_message` is written only with a non-empty message and is never
  cleared. A FAILED write with an empty message therefore leaves it null,
  and the column is not tied to the FAILED status (`ErrorMessageRules`).
- A run whose RUNNING write fails sends no start notice; when its FAILED
  write then commits, it does send a failure notice. A run whose completion
  notice raises sends a completion notice and, when its FAILED write
  commits, a failure notice as well. So "exactly one start notice and
  exactly one terminal notice per run" does not hold.
- During a store outage, when both the RUNNING and the FAILED writes raise,
  the run sends no notice at all, the job stays PENDING, and the FAILED
  write's error escapes the worker (`StoreDownNoNotice`). So "every job
  eventually leaves PENDING" does not hold either.

## Model

| member | source | states |
|---|---|---|
| Models.ParseStatus | models.py:7-13 | a tag parses to the status whose value it is, and a tag that no status carries does not parse |
| Models.StatusRoundTrip | models.py:7-13 | a status stored as its tag and read back is the same status |
| Models.StatusTags | models.py:7-13 | the five tags are pairwise distinct, and exactly pending, running, completed, failed and cancelled parse |
| Models.NewDownloadRequest | models.py:16-23 | data types default to ["trades"] when absent and are kept as given otherwise; the output path stays optional; the required fields are copied |
| Text.Split | app/config.py:39 | `split(",")` yields at least one piece, no piece holds the separator, and joining the pieces with it gives back the input |
| Text.SplitJoin | app/config.py:39 | splitting a join of separator-free pieces gives back the pieces |
| Text.SplitAppend | app/config.py:39 | splitting `a + "," + b` gives the pieces of `a` followed by those of `b` |
| Text.SplitNone | app/config.py:39 | a string without the separator splits into itself alone |
| Text.StripShape | app/config.py:39 | `strip()` returns a slice of the input with only whitespace cut on either side and no whitespace left at either end |
| Text.StripUnique | app/config.py:39 | a non-blank slice with only whitespace around it is the one result `strip()` can give |
| Text.StripAllSpace | app/config.py:39 | stripping an all-whitespace string gives "" |
| Text.StripTrimmed | app/config.py:39 | stripping a string without edge whitespace leaves it unchanged |
| Text.StripPadded | app/config.py:39 | stripping whitespace padding around a trimmed string gives that string |
| Text.NatText | app/telegram_notifier.py:42 | `str(n)` of a natural number is a non-empty run of digits without a leading zero |
| Text.ParseNatText | app/telegram_notifier.py:42 | reading back the digits of `str(n)` gives n |
| Text.IntText | app/telegram_notifier.py:46 | `str(n)` of an integer starts with a minus sign exactly when n is negative, followed by the digits of its magnitude |
| Config.AllowedEntries | app/config.py:39 | the allow-list entries are the comma-separated pieces, each stripped, in order |
| Config.EntryMembership | app/config.py:39-40 | a name is among the stripped entries exactly when it equals one stripped comma-separated piece |
| Config.IsUserAllowed | app/config.py:35-40 | an empty list admits everybody; otherwise a username is admitted iff it equals some stripped entry |
| Config.SplitFields | app/config.py:39 | the pieces of `split(",")` are exactly the comma-delimited fields of the string |
| Config.AllowedIffField | app/config.py:37-40 | a non-empty list admits a username iff some comma-delimited field strips to it |
| Config.WhitespaceListAdmitsNobody | app/config.py:37-40 | a whitespace-only list is enforced and admits no non-empty username |
| Config.AppendEntryKeepsUsers | app/config.py:39-40 | appending an entry to a non-empty list never revokes an admitted user |
| Config.PaddedEntryAdmitsName | app/config.py:39-40 | an entry padded with whitespace admits the bare name |
| Config.UsernameNotStripped | app/config.py:39-40 | the username is compared unstripped: a space-padded name does not match the bare entry |
| Config.DefaultsAreOpen | app/config.py:11-27 | by default no token is set, the allow-list is open, and the output path is "./datasets" |
| Database.EmptyStoreValid | app/database.py:20-32 | the empty store satisfies the store invariant |
| Database.CreateJob | app/database.py:66-91 | the new row gets the next, fresh id, status PENDING, the given fields, and no start, completion or error; the other rows stay; the invariant is kept |
| Database.GetJob | app/database.py:93-96 | the row is returned exactly when the id is stored, and an absent id gives nothing |
| Database.ApplyStatus | app/database.py:119-125 | the status is written; the start is stamped only by a RUNNING write on an unstarted row; every terminal write stamps the completion; the error is set only from a non-empty message; the request columns are untouched |
| Database.UpdateJobStatus | app/database.py:109-125 | an absent id leaves the store exactly as it was; a present row is rewritten by the row rules at the current clock, which then advances; the set of ids is kept |
| Database.UpdateKeepsValid | app/database.py:109-125 | a status write keeps the store invariant |
| Database.RunningTwiceKeepsStart | app/database.py:120-121 | a second RUNNING write keeps the first start time |
| Database.TerminalTwiceRestamps | app/database.py:122-123 | a second terminal write overwrites the completion time with a later one |
| Database.ErrorMessageRules | app/database.py:124-125 | the error column is written only with a non-empty message and never cleared, so FAILED with "" leaves it null |
| Database.AnyStatusIsWritten | app/database.py:116-119 | any status can be written over any other and reads back as written |
| Database.UpdateFrame | app/database.py:116-125 | an update keeps every row's request columns and leaves every other row unchanged |
| Database.RecentIds | app/database.py:102-106 | the selected ids are stored, strictly decreasing, and at most the limit |
| Database.RecentIdsFull | app/database.py:102-106 | fewer ids than the limit means every stored id in range was selected |
| Database.RecentIdsOlder | app/database.py:102-106 | every stored id in range that was not selected is smaller than every selected id |
| Database.RecentRows | app/database.py:102-106 | under the invariant, listing by decreasing id is listing by decreasing creation time |
| Database.GetAllJobs | app/database.py:98-107 | at most `limit` stored rows (all for a negative limit), newest first, all rows when fewer than the limit, and every row left out older than every row listed |
| Notifier.SendMessage | app/telegram_notifier.py:16-28 | true when delivered, false on a `TelegramError`, and any other exception passes through |
| Notifier.Notify | app/telegram_notifier.py:52 | a notify call raises exactly when the transport raises something other than a `TelegramError` |
| Notifier.SymbolsTextShape | app/telegram_notifier.py:40-42 | up to three symbols are joined with ", "; beyond three, the first three joined, then " (+", a numeral without a leading zero that reads back as the number left out, then " more)" |
| Notifier.SymbolsTextExample | app/telegram_notifier.py:40-42 | symbols A to E render as "A, B, C (+2 more)" |
| Notifier.TruncateError | app/telegram_notifier.py:92 | an error of at most 200 characters is unchanged; a longer one becomes its first 200 characters plus "...", 203 in all |
| Notifier.DurationLine | app/telegram_notifier.py:66-68 | the duration line is empty exactly when the duration is absent or zero |
| Notifier.StartedMessageFields | app/telegram_notifier.py:44-51 | the start notice opens with its header and contains the job id, exchange, symbols, date range and requester lines |
| Notifier.CompletedMessageDuration | app/telegram_notifier.py:70-76 | the completion notice ends at the symbols line without a duration, and with the duration line otherwise |
| Notifier.FailedMessageCarriesError | app/telegram_notifier.py:92-99 | the failure notice ends with the truncated error and so contains an error of at most 200 characters in full |
| Notifier.SymbolsRenderedAlike | app/telegram_notifier.py:40-89 | all three notices contain the same symbols line |
| Downloader.TryBlock | app/downloader.py:40-93 | the try block keeps the set of ids and the id counter |
| Downloader.ExceptBlock | app/downloader.py:95-112 | the failure branch keeps the set of ids and the id counter |
| Downloader.DownloadData | app/downloader.py:35-38 | a job missing at the first read ends the run with no call made and the store unchanged; every run keeps the set of ids and the id counter |
| Downloader.RunStore | app/downloader.py:35-112 | a run on a present job leaves exactly the store obtained by applying, in order, the RUNNING write if it commits, the COMPLETED write if reached and committed, and the FAILED write with the raised message if the try block raised and that write commits |
| Downloader.RunKeepsValid | app/downloader.py:35-112 | a run keeps the store invariant |
| Downloader.TryFollowsProtocol | app/downloader.py:40-91 | the try block makes the happy-path calls up to and including the first that raises, and raises that call's message |
| Downloader.RunFollowsProtocol | app/downloader.py:35-112 | a run's trace is a prefix of RUNNING write, start notice, mkdir, transfer, COMPLETED write, completion notice, then a prefix of FAILED write and failure notice carrying the raised message; the start notice names the stored requester; the duration comes from the start time read before the RUNNING write; only the failure branch's own exceptions escape |
| Downloader.FinalRow | app/downloader.py:42-104 | a run with no exception ends COMPLETED, started before it completed, with the error untouched; a raised run whose FAILED write commits ends FAILED, stamped complete, and holds the raised message when it is non-empty (an empty message leaves the column as it was); other rows are unchanged |
| Downloader.CompletedRow | app/downloader.py:42-83 | with nothing raised, the row ends COMPLETED at the tick after the RUNNING write, started before then, with the error untouched |
| Downloader.FailedRow | app/downloader.py:95-104 | when the try block raised and the FAILED write commits, the row ends FAILED, stamped complete, holding the raised message if it is non-empty |
| Downloader.OtherRows | app/downloader.py:35-112 | a run changes no row but its own |
| Downloader.CompletedThenFailed | app/downloader.py:83-112 | a completion notice that raises after the COMPLETED write leads to a FAILED write; when that write commits, the job ends FAILED with its completion stamped again |
| Downloader.CompletedStaysCompleted | app/downloader.py:83-112 | a completion notice that raises, followed by a FAILED write that raises, leaves the job COMPLETED, sends no failure notice and lets the write's error escape |
| Downloader.StoreDownNoNotice | app/downloader.py:40-104 | when the RUNNING and FAILED writes both raise, the run makes only those two calls, sends no notice, leaves the store (and the PENDING job) unchanged and lets the FAILED write's error escape |
| Downloader.FreshJobHasNoDuration | app/downloader.py:78-80 | for a job never started before the run, the completion notice has no duration although the RUNNING write stamped a start |
| Downloader.TransferOnceAfterSetup | app/downloader.py:42-75 | the transfer is attempted at most once, fourth, after the RUNNING write, start notice and mkdir, and exactly when none of them raised |
| Downloader.WorkerStatuses | app/downloader.py:42-104 | the worker first writes RUNNING, and writes only RUNNING, COMPLETED and FAILED, FAILED with the raised message |
| Downloader.RunDependsOnObservable | app/downloader.py:45-112 | the run depends on the notifier only through whether a notify call raised |
| Downloader.TelegramErrorsIgnored | app/telegram_notifier.py:26-28 | a notice rejected with a `TelegramError` leaves the run exactly as if it had been delivered |
| Api.VerifyApiToken | main.py:56-61 | with a non-empty token configured a request passes iff it carries exactly that token, otherwise 401; without one every request passes |
| Api.VerifyUser | main.py:64-78 | a missing or empty username gives 400; a username the allow-list rejects gives 403 naming it; otherwise the username is returned |
| Api.Authorize | main.py:105-106 | a request passes iff both checks pass, failing with 400, 401 or 403 |
| Api.UserCheckedBeforeToken | main.py:105-106 | the username check answers first, so a missing username gives 400 whatever the token |
| Api.OpenServiceAdmits | main.py:56-78 | without a token configured, an admitted user passes under their own name |
| Api.ResolveOutputPath | main.py:115 | the request's output path is used unless it is missing or empty, in which case the configured default is used |
| Api.SubmitDownload | main.py:101-150 | a gate failure is returned unchanged and a failed insert gives 500 with its text, both without storing anything; otherwise the job is stored PENDING under the next id with the resolved path and the caller's name, the answer is 202 with that id, and the scheduled run carries the same id and path |
| Api.SubmittedTaskMatchesRow | main.py:118-138 | the scheduled run targets the new row and carries that row's exchange, data types, symbols, dates and output path |
| Api.ToResponse | main.py:168-182 | the response carries every column of the row and the parsed status; a tag that names no status gives 500 |
| Api.ToResponses | main.py:167-184 | the list projects every row in order, or fails with the error of the first row that does not project |
| Api.ListRecent | main.py:165-189 | `total` equals the number of jobs returned, and job k is the projection of row k of the store's listing |
| Api.ListRecentRows | main.py:165-189 | at most `limit` jobs are returned (all for a negative limit), each the projection of its stored row |
| Api.ListRecentOrder | main.py:165-189 | the jobs are newest first; a list shorter than the limit holds every job; every job left out is older than every job listed |
| Api.ListJobs | main.py:153-193 | a gate failure is returned unchanged; otherwise the answer is the listing with the requested limit, or 50 when none is given |
| Api.GetJobDetail | main.py:196-231 | after the gate, an absent id gives 404 "Job {id} not found", and a present one its full projection |
| Api.GetJobStatus | main.py:234-261 | after the gate, an absent id gives 404; a present one gives exactly id, raw status, creator, creation time and error |
| Api.DetailAndStatusAgree | main.py:206-255 | on a well-formed store both single-job views find the same rows, and the quick view's status is the tag of the detailed view's status |
| Api.NotFoundNamesTheId | main.py:209 | the 404 text names the requested id for any integer: a minus sign exactly when the id is negative, then digits that read back as its magnitude |
| Scenarios.BinanceSubmitThenSucceed | main.py:101-150 | a binance submission without output path is stored PENDING under "./datasets"; after a successful run it is COMPLETED, started before completed, with no error |
| Scenarios.DiskFull | app/downloader.py:66-112 | a transfer raising "disk full" leads to one FAILED write and exactly one failure notice, the sixth call, containing "disk full"; the job ends FAILED with that message and both stamps set |
| Scenarios.UnknownJobIsNotFound | main.py:206-247 | both single-job endpoints answer 404 for an unknown id |
| Scenarios.ListWithinStore | main.py:153-189 | listing with a limit no larger than the number of jobs (say 2 of 5) returns exactly that many, newest first, with total equal to it, and the others are older than the last listed |
| Scenarios.ListFullLimit | app/database.py:98-107 | a limit no larger than the number of stored jobs yields exactly `limit` jobs |

## Left out

- client.py, the command-line client, has no orchestration logic. Its two-symbol display truncation is not modelled.
- test_service.py holds live smoke tests against a running server. Only its expectation that an unauthenticated listing answers 400, 401 or 403 is reflected, by `Api.Authorize`.
- The SQL engine, sessions, commit and rollback, `init_db` and `close` are replaced by an atomic map-based store.
- Read failures of the store are not modelled. Each write (the worker's status writes, the submit handler's insert) has an abstract outcome. A failed write leaves the store as it was.
- The chat `Bot` transport and its HTML parse mode are not modelled. Delivery is an abstract `Delivery` outcome, and the chat id and bot token are not part of the model.
- The transfer library, `asyncio.to_thread` and `Path.mkdir` are abstract `Outcome`s. The worker's API key is a credential the model does not carry.
- Wall-clock time is replaced by the store's logical clock, which strictly increases with every committed write. `datetime.utcnow()` can return the same value twice or step back, so the proved orderings that rest on the clock (a job started before it completed in `CompletedRow`, `FinalRow` and `BinanceSubmitThenSucceed`; creation time growing with the id in the store invariant) hold for the model, not for every run of the service.
- Downloader.DownloadData: an `Err` or `OtherError` outcome stands only for an exception derived from `Exception`, which `except Exception` catches. A `BaseException` that is not an `Exception` (such as `asyncio.CancelledError` while the transfer or a notice is awaited, or an interpreter exit) escapes the worker with no further writes, leaving the row as its last committed write left it: PENDING when it strikes inside the RUNNING write (the session closes without committing), RUNNING during the start notice, the mkdir or the transfer, COMPLETED during the completion notice, and FAILED during the failure notice. The model has no outcome for it.
- Notifier.DurationLine: the duration is a whole number of clock ticks rendered with `str()`. The source divides seconds by 60 and formats with `.1f`, which the model does not reproduce. Only whether the line is present is faithful.
- Background scheduling and concurrent workers are not modelled. A submission returns the run it schedules, and that run is modelled as a separate sequential call.
- The FastAPI application and routing, logging, the lifespan hook, the `/` and `/health` endpoints and the uvicorn entry point are not modelled.
- Loading settings from the environment and the env file is not modelled. `Settings` holds only the three values the core reads.
- Body validation of a submission (the 422 answer for a malformed body) happens before the handler runs and is not modelled. `DownloadRequest` values are taken as already validated.
- Api.ToResponse: the 500 text for an unknown stored tag quotes the tag with single quotes. Python's `repr` switches to double quotes for a tag that contains a single quote, and escapes backslashes, control characters and other non-printable characters; the model does none of this and inserts the tag as it is.
- Api.ListJobs: requires the store invariant, under which every stored tag parses, so its 500 path for an unknown tag is not reachable there. `Api.ToResponse` and `Api.ToResponses` model that path on their own.
- Database.GetAllJobs: orders rows by id. Under the store invariant, creation times grow with the id, so this is the same as ordering by creation time; ties in creation time cannot occur in the model.

=== FILE: api.dfy ===
/** The request gate and the four job handlers of the HTTP service
    (main.py): `verify_user`, `verify_api_token`, and the logic of
    `POST /download`, `GET /jobs`, `GET /jobs/{id}` and
    `GET /jobs/{id}/status`. A handler's value is its response payload or the
    HTTP error it raises. */
module Api {
  import opened Base
  import opened Text
  import opened Models
  import opened Config
  import opened Database
  import opened Downloader

  const MissingUserDetail: string := "Missing X-Username header. Please provide your username."
  const BadTokenDetail: string := "Invalid or missing API token"
  const SubmittedMessage: string := "Download job submitted successfully. You'll receive Telegram notifications."

  /** The status code of an accepted submission. */
  const AcceptedCode: int := 202

  /** The `limit` query parameter when the request gives none. */
  const DefaultListLimit: int := 50

  /** The 403 detail for a username the allow-list rejects. */
  function NotAuthorizedDetail(username: string): string {
    "User '" + username + "' is not authorized to use this service"
  }

  /** The 404 detail for an unknown job id. */
  function NotFoundDetail(jobId: int): string {
    "Job " + IntText(jobId) + " not found"
  }

  /** The `str()` of the `ValueError` the status enum raises for a stored
      tag that names no status. */
  function BadStatusDetail(tag: string): string {
    "'" + tag + "' is not a valid JobStatus"
  }

  // ---------------------------------------------------------------------
  // The request gate

  /** `verify_api_token`: with a non-empty token configured, the request
      must carry exactly that token; otherwise every request passes. */
  function VerifyApiToken(cfg: Settings, header: Option<string>): (r: Result<bool>)
    ensures r.Success? <==> cfg.apiToken.None? || cfg.apiToken.value == "" || header == cfg.apiToken
    ensures r.Success? ==> r.value
    ensures r.Failure? ==> r.error == HttpError(401, BadTokenDetail)
  {
    match cfg.apiToken
    case Some(token) =>
      if token != "" && (header.None? || header.value == "" || header.value != token)
      then Failure(HttpError(401, BadTokenDetail))
      else Success(true)
    case None => Success(true)
  }

  /** `verify_user`: a missing or empty username is a 400; a username the
      allow-list rejects is a 403; otherwise the username passes through. */
  function VerifyUser(cfg: Settings, header: Option<string>): (r: Result<string>)
    ensures header.None? || header == Some("") ==> r == Failure(HttpError(400, MissingUserDetail))
    ensures header.Some? && header.value != "" ==>
      (r.Success? <==> IsUserAllowed(cfg, header.value))
    ensures r.Success? ==> header == Some(r.value)
    ensures header.Some? && header.value != "" && r.Failure? ==>
      r.error == HttpError(403, NotAuthorizedDetail(header.value))
  {
    match header
    case None => Failure(HttpError(400, MissingUserDetail))
    case Some(u) =>
      if u == "" then Failure(HttpError(400, MissingUserDetail))
      else if !IsUserAllowed(cfg, u) then Failure(HttpError(403, NotAuthorizedDetail(u)))
      else Success(u)
  }

  /** The two dependencies every job endpoint declares, resolved in order:
      the username first, then the token. */
  function Authorize(cfg: Settings, userHeader: Option<string>, tokenHeader: Option<string>): (r: Result<string>)
    ensures r.Success? <==> VerifyUser(cfg, userHeader).Success? && VerifyApiToken(cfg, tokenHeader).Success?
    ensures r.Success? ==> userHeader == Some(r.value)
    ensures r.Failure? ==> r.error.code in {400, 401, 403}
  {
    var username :- VerifyUser(cfg, userHeader);
    var _ :- VerifyApiToken(cfg, tokenHeader);
    Success(username)
  }

  /** A request that fails both checks is answered by the username check:
      a missing username is a 400 even when the token is wrong too. */
  lemma UserCheckedBeforeToken(cfg: Settings, userHeader: Option<string>, tokenHeader: Option<string>)
    requires VerifyUser(cfg, userHeader).Failure?
    ensures Authorize(cfg, userHeader, tokenHeader) == Failure(VerifyUser(cfg, userHeader).error)
    ensures userHeader.None? ==> Authorize(cfg, userHeader, tokenHeader).error.code == 400
  {
  }

  /** A user the allow-list admits, on a service with no token configured,
      passes the gate under their own name. */
  lemma OpenServiceAdmits(cfg: Settings, username: string, tokenHeader: Option<string>)
    requires cfg.apiToken.None? && username != "" && IsUserAllowed(cfg, username)
    ensures Authorize(cfg, Some(username), tokenHeader) == Success(username)
  {
  }

  // ---------------------------------------------------------------------
  // POST /download

  /** The output path a submission records: the requested one unless it is
      missing or empty, then the configured default. */
  function ResolveOutputPath(cfg: Settings, requested: Option<string>): (p: string)
    ensures requested.Some? && requested.value != "" ==> p == requested.value
    ensures requested.None? || requested == Some("") ==> p == cfg.defaultOutputPath
  {
    match requested
    case Some(path) => if path != "" then path else cfg.defaultOutputPath
    case None => cfg.defaultOutputPath
  }

  /** An accepted submission: the response, its status code, and the worker
      run it schedules. */
  datatype Submitted = Submitted(response: JobSubmitResponse, statusCode: int, task: DownloadArgs)

  /** A handler's effect on the store together with its answer. */
  datatype Handled<+T> = Handled(store: Store, result: Result<T>)

  /** `submit_download`: after the gate, record a PENDING job under the
      resolved output path and schedule the worker on it. `create` is how
      the insert ends; when it raises, nothing is stored and the handler
      answers 500 with the exception's text. */
  function SubmitDownload(
    cfg: Settings, st: Store, request: DownloadRequest,
    userHeader: Option<string>, tokenHeader: Option<string>, create: Outcome): (r: Handled<Submitted>)
    ensures Authorize(cfg, userHeader, tokenHeader).Failure? ==>
      r == Handled(st, Failure(Authorize(cfg, userHeader, tokenHeader).error))
    ensures Authorize(cfg, userHeader, tokenHeader).Success? && create.Err? ==>
      r == Handled(st, Failure(HttpError(500, create.msg)))
    ensures r.result.Success? <==> Authorize(cfg, userHeader, tokenHeader).Success? && create.Ok?
    ensures r.result.Success? ==>
      var id := st.nextId;
      var path := ResolveOutputPath(cfg, request.outputPath);
      var s := r.result.value;
      && s.response == JobSubmitResponse(id, SubmittedMessage, Pending)
      && s.statusCode == AcceptedCode
      && s.task == DownloadArgs(id, request.exchange, request.dataTypes, request.symbols,
                                request.startDate, request.endDate, path)
      && r.store.jobs.Keys == st.jobs.Keys + {id}
      && r.store.nextId == st.nextId + 1
      && (Valid(st) ==> id !in st.jobs && forall other :: other in st.jobs ==> r.store.jobs[other] == st.jobs[other])
      && ParseStatus(r.store.jobs[id].status) == Some(Pending)
      && r.store.jobs[id].createdBy == userHeader.value
      && r.store.jobs[id].outputPath == path
    ensures Valid(st) ==> Valid(r.store)
  {
    match Authorize(cfg, userHeader, tokenHeader)
    case Failure(e) => Handled(st, Failure(e))
    case Success(username) =>
      if create.Err? then Handled(st, Failure(HttpError(500, create.msg)))
      else
        var path := ResolveOutputPath(cfg, request.outputPath);
        var (st', job) := CreateJob(st, request.exchange, request.dataTypes, request.symbols,
                                    request.startDate, request.endDate, path, username);
        var task := DownloadArgs(job.id, request.exchange, request.dataTypes, request.symbols,
                                 request.startDate, request.endDate, path);
        Handled(st', Success(Submitted(JobSubmitResponse(job.id, SubmittedMessage, Pending), AcceptedCode, task)))
  }

  /** The scheduled run targets the row just stored, with that row's own
      exchange, data types, symbols, dates and output path; under the store
      invariant that row is new. */
  lemma SubmittedTaskMatchesRow(
    cfg: Settings, st: Store, request: DownloadRequest,
    userHeader: Option<string>, tokenHeader: Option<string>)
    requires Valid(st)
    requires SubmitDownload(cfg, st, request, userHeader, tokenHeader, Ok).result.Success?
    ensures var r := SubmitDownload(cfg, st, request, userHeader, tokenHeader, Ok);
      var a := r.result.value.task;
      && a.jobId !in st.jobs && a.jobId in r.store.jobs
      && r.result.value.response.jobId == a.jobId
      && var job := r.store.jobs[a.jobId];
      && job.exchange == a.exchange && job.dataTypes == a.dataTypes && job.symbols == a.symbols
      && job.startDate == a.startDate && job.endDate == a.endDate && job.outputPath == a.outputPath
      && job.startedAt.None? && job.completedAt.None? && job.errorMessage.None?
  {
  }

  // ---------------------------------------------------------------------
  // Projections of a row

  /** A row as `JobResponse`: every column carried over, the status tag
      converted to the enum; a tag that names no status raises, which the
      handlers answer with 500. */
  function ToResponse(job: Job): (r: Result<JobResponse>)
    ensures r.Success? <==> ParseStatus(job.status).Some?
    ensures r.Success? ==>
      var v := r.value;
      && v.id == job.id && v.status.Value() == job.status
      && v.exchange == job.exchange && v.dataTypes == job.dataTypes && v.symbols == job.symbols
      && v.startDate == job.startDate && v.endDate == job.endDate && v.outputPath == job.outputPath
      && v.createdAt == job.createdAt && v.startedAt == job.startedAt
      && v.completedAt == job.completedAt && v.errorMessage == job.errorMessage
      && v.createdBy == job.createdBy
    ensures r.Failure? ==> r.error == HttpError(500, BadStatusDetail(job.status))
  {
    match ParseStatus(job.status)
    case None => Failure(HttpError(500, BadStatusDetail(job.status)))
    case Some(s) =>
      Success(JobResponse(job.id, s, job.exchange, job.dataTypes, job.symbols, job.startDate,
                          job.endDate, job.outputPath, job.createdAt, job.startedAt,
                          job.completedAt, job.errorMessage, job.createdBy))
  }

  /** Projects every row in order; the first row whose tag does not parse
      fails the whole list. */
  function ToResponses(jobs: seq<Job>): (r: Result<seq<JobResponse>>)
    ensures r.Success? <==> forall k :: 0 <= k < |jobs| ==> ToResponse(jobs[k]).Success?
    ensures r.Success? ==> |r.value| == |jobs|
    ensures r.Success? ==> forall k :: 0 <= k < |jobs| ==> r.value[k] == ToResponse(jobs[k]).value
    ensures r.Failure? ==>
      exists k :: 0 <= k < |jobs| && ToResponse(jobs[k]) == Failure(r.error)
        && forall m :: 0 <= m < k ==> ToResponse(jobs[m]).Success?
  {
    if |jobs| == 0 then Success([])
    else
      var head :- ToResponse(jobs[0]);
      var tail := ToResponses(jobs[1..]);
      if tail.Failure? then Failure(tail.error)
      else Success([head] + tail.value)
  }

  /** The quick status view: the stored tag as it is, without conversion. */
  datatype StatusView = StatusView(
    jobId: int, status: string, createdBy: string, createdAt: nat, errorMessage: Option<string>)

  // ---------------------------------------------------------------------
  // GET /jobs, GET /jobs/{id}, GET /jobs/{id}/status

  /** The body of `list_jobs` past the gate: the rows `get_all_jobs`
      returns, each projected, and their count. */
  function ListRecent(st: Store, limit: int): (v: JobListResponse)
    requires Valid(st)
    ensures v.total == |v.jobs|
    ensures Mirrors(GetAllJobs(st, limit), v.jobs)
    ensures forall k :: 0 <= k < |v.jobs| ==> ToResponse(GetAllJobs(st, limit)[k]) == Success(v.jobs[k])
  {
    var rows := GetAllJobs(st, limit);
    StoredRowsProject(st, rows);
    var items := ToResponses(rows).value;
    JobListResponse(items, |items|)
  }

  /** The listing holds at most `limit` jobs (all for a negative limit),
      each the projection of its stored row. */
  lemma ListRecentRows(st: Store, limit: int)
    requires Valid(st)
    ensures var v := ListRecent(st, limit);
      && |v.jobs| <= LimitBound(st, limit)
      && forall k :: 0 <= k < |v.jobs| ==>
           v.jobs[k].id in st.jobs && ToResponse(st.jobs[v.jobs[k].id]) == Success(v.jobs[k])
  {
    var rows := GetAllJobs(st, limit);
    var items := ListRecent(st, limit).jobs;
    forall k | 0 <= k < |items|
      ensures items[k].id in st.jobs && ToResponse(st.jobs[items[k].id]) == Success(items[k])
    {
      assert items[k].id == rows[k].id;
    }
  }

  /** The listing is newest first; it holds every job when it is shorter
      than the limit, and every job left out is older than every job
      listed. */
  lemma ListRecentOrder(st: Store, limit: int)
    requires Valid(st)
    ensures var v := ListRecent(st, limit);
      && (forall k, l :: 0 <= k < l < |v.jobs| ==> v.jobs[k].createdAt > v.jobs[l].createdAt)
      && (|v.jobs| < LimitBound(st, limit) ==>
            forall id :: id in st.jobs ==> exists k :: 0 <= k < |v.jobs| && v.jobs[k].id == id)
      && (forall id :: id in st.jobs && (forall k :: 0 <= k < |v.jobs| ==> v.jobs[k].id != id) ==>
            forall k :: 0 <= k < |v.jobs| ==> st.jobs[id].createdAt < v.jobs[k].createdAt)
  {
    ListRecentNewestFirst(st, limit);
    ListRecentCover(st, limit);
    ListRecentOlder(st, limit);
  }

  /** The listing is newest first. */
  lemma ListRecentNewestFirst(st: Store, limit: int)
    requires Valid(st)
    ensures var v := ListRecent(st, limit);
      forall k, l :: 0 <= k < l < |v.jobs| ==> v.jobs[k].createdAt > v.jobs[l].createdAt
  {
    OrderCarriesOver(GetAllJobs(st, limit), ListRecent(st, limit).jobs);
  }

  /** A listing shorter than the limit holds every job. */
  lemma ListRecentCover(st: Store, limit: int)
    requires Valid(st)
    ensures var v := ListRecent(st, limit);
      |v.jobs| < LimitBound(st, limit) ==>
        forall id :: id in st.jobs ==> exists k :: 0 <= k < |v.jobs| && v.jobs[k].id == id
  {
    CoverCarriesOver(st, GetAllJobs(st, limit), ListRecent(st, limit).jobs);
  }

  /** Every job left out of the listing is older than every job listed. */
  lemma ListRecentOlder(st: Store, limit: int)
    requires Valid(st)
    ensures var v := ListRecent(st, limit);
      forall id :: id in st.jobs && (forall k :: 0 <= k < |v.jobs| ==> v.jobs[k].id != id) ==>
        forall k :: 0 <= k < |v.jobs| ==> st.jobs[id].createdAt < v.jobs[k].createdAt
  {
    OlderCarriesOver(st, GetAllJobs(st, limit), ListRecent(st, limit).jobs);
  }

  /** Responses that match their rows on id and creation time, position by
      position. */
  predicate Mirrors(rows: seq<Job>, items: seq<JobResponse>) {
    && |items| == |rows|
    && forall k :: 0 <= k < |rows| ==> items[k].id == rows[k].id && items[k].createdAt == rows[k].createdAt
  }

  lemma OrderCarriesOver(rows: seq<Job>, items: seq<JobResponse>)
    requires Mirrors(rows, items)
    requires forall k, l :: 0 <= k < l < |rows| ==> rows[k].createdAt > rows[l].createdAt
    ensures forall k, l :: 0 <= k < l < |items| ==> items[k].createdAt > items[l].createdAt
  {
  }

  lemma CoverCarriesOver(st: Store, rows: seq<Job>, items: seq<JobResponse>)
    requires Mirrors(rows, items)
    ensures (forall id :: id in st.jobs ==> exists k :: 0 <= k < |rows| && rows[k].id == id) ==>
      forall id :: id in st.jobs ==> exists k :: 0 <= k < |items| && items[k].id == id
  {
    if forall id :: id in st.jobs ==> exists k :: 0 <= k < |rows| && rows[k].id == id {
      forall id | id in st.jobs ensures exists k :: 0 <= k < |items| && items[k].id == id {
        var k :| 0 <= k < |rows| && rows[k].id == id;
        assert items[k].id == id;
      }
    }
  }

  lemma OlderCarriesOver(st: Store, rows: seq<Job>, items: seq<JobResponse>)
    requires Mirrors(rows, items)
    requires forall id :: id in st.jobs && (forall k :: 0 <= k < |rows| ==> rows[k].id != id) ==>
      forall k :: 0 <= k < |rows| ==> st.jobs[id].createdAt < rows[k].createdAt
    ensures forall id :: id in st.jobs && (forall k :: 0 <= k < |items| ==> items[k].id != id) ==>
      forall k :: 0 <= k < |items| ==> st.jobs[id].createdAt < items[k].createdAt
  {
    forall id | id in st.jobs && (forall k :: 0 <= k < |items| ==> items[k].id != id)
      ensures forall k :: 0 <= k < |items| ==> st.jobs[id].createdAt < items[k].createdAt
    {
      assert forall k :: 0 <= k < |rows| ==> rows[k].id != id;
    }
  }

  /** `list_jobs`: the gate, then the listing with the requested limit, 50
      when the request gives none. On a well-formed store the listing itself
      never fails. */
  function ListJobs(
    cfg: Settings, st: Store, limit: Option<int>,
    userHeader: Option<string>, tokenHeader: Option<string>): (r: Result<JobListResponse>)
    requires Valid(st)
    ensures Authorize(cfg, userHeader, tokenHeader).Failure? ==>
      r == Failure(Authorize(cfg, userHeader, tokenHeader).error)
    ensures Authorize(cfg, userHeader, tokenHeader).Success? ==>
      r == Success(ListRecent(st, limit.GetOr(DefaultListLimit)))
    ensures limit.None? && r.Success? ==> |r.value.jobs| <= 50
  {
    var _ :- Authorize(cfg, userHeader, tokenHeader);
    Success(ListRecent(st, limit.GetOr(DefaultListLimit)))
  }

  /** Rows of a well-formed store always project: their tags all parse, and
      each response carries its row's id and creation time. */
  lemma StoredRowsProject(st: Store, rows: seq<Job>)
    requires Valid(st)
    requires forall k :: 0 <= k < |rows| ==> rows[k].id in st.jobs && st.jobs[rows[k].id] == rows[k]
    ensures ToResponses(rows).Success?
    ensures Mirrors(rows, ToResponses(rows).value)
    ensures forall k :: 0 <= k < |rows| ==> ToResponse(rows[k]) == Success(ToResponses(rows).value[k])
  {
    forall k | 0 <= k < |rows| ensures ToResponse(rows[k]).Success? {
      assert RowOk(st, rows[k].id);
    }
  }

  /** `get_job`: after the gate, the full projection of the row, or 404 when
      there is none. */
  function GetJobDetail(
    cfg: Settings, st: Store, jobId: int,
    userHeader: Option<string>, tokenHeader: Option<string>): (r: Result<JobResponse>)
    ensures Authorize(cfg, userHeader, tokenHeader).Failure? ==>
      r == Failure(Authorize(cfg, userHeader, tokenHeader).error)
    ensures Authorize(cfg, userHeader, tokenHeader).Success? ==>
      && (jobId !in st.jobs ==> r == Failure(HttpError(404, NotFoundDetail(jobId))))
      && (jobId in st.jobs ==> r == ToResponse(st.jobs[jobId]))
  {
    var _ :- Authorize(cfg, userHeader, tokenHeader);
    match GetJob(st, jobId)
    case None => Failure(HttpError(404, NotFoundDetail(jobId)))
    case Some(job) => ToResponse(job)
  }

  /** `get_job_status`: after the gate, the quick view of the row, or 404
      when there is none. */
  function GetJobStatus(
    cfg: Settings, st: Store, jobId: int,
    userHeader: Option<string>, tokenHeader: Option<string>): (r: Result<StatusView>)
    ensures Authorize(cfg, userHeader, tokenHeader).Failure? ==>
      r == Failure(Authorize(cfg, userHeader, tokenHeader).error)
    ensures Authorize(cfg, userHeader, tokenHeader).Success? ==>
      && (jobId !in st.jobs ==> r == Failure(HttpError(404, NotFoundDetail(jobId))))
      && (jobId in st.jobs ==>
            && r.Success? && r.value.jobId == st.jobs[jobId].id
            && r.value.status == st.jobs[jobId].status
            && r.value.createdBy == st.jobs[jobId].createdBy
            && r.value.createdAt == st.jobs[jobId].createdAt
            && r.value.errorMessage == st.jobs[jobId].errorMessage)
  {
    var _ :- Authorize(cfg, userHeader, tokenHeader);
    match GetJob(st, jobId)
    case None => Failure(HttpError(404, NotFoundDetail(jobId)))
    case Some(job) =>
      Success(StatusView(job.id, job.status, job.createdBy, job.createdAt, job.errorMessage))
  }

  /** On a well-formed store the two single-job views agree: both find the
      same rows, and the status view's raw tag is the tag of the detail
      view's status. */
  lemma DetailAndStatusAgree(
    cfg: Settings, st: Store, jobId: int, userHeader: Option<string>, tokenHeader: Option<string>)
    requires Valid(st)
    ensures var d := GetJobDetail(cfg, st, jobId, userHeader, tokenHeader);
      var s := GetJobStatus(cfg, st, jobId, userHeader, tokenHeader);
      && (d.Success? <==> s.Success?)
      && (d.Failure? ==> d.error == s.error)
      && (d.Success? ==> d.value.status.Value() == s.value.status && d.value.id == s.value.jobId)
  {
    if jobId in st.jobs {
      assert RowOk(st, jobId);
    }
  }

  /** The 404 detail names the requested id, which can be read back from
      it: a minus sign exactly for a negative id, then the magnitude's digits. */
  lemma NotFoundNamesTheId(jobId: int)
    ensures var d := NotFoundDetail(jobId);
      && |d| > 14 && d[..4] == "Job " && d[|d| - 10..] == " not found"
      && var num := d[4..|d| - 10];
      && (num[0] == '-' <==> jobId < 0)
      && (jobId >= 0 ==> AllDigits(num) && ParseNat(num) == jobId)
      && (jobId < 0 ==> AllDigits(num[1..]) && ParseNat(num[1..]) == -jobId)
  {
    var d := NotFoundDetail(jobId);
    assert d == "Job " + IntText(jobId) + " not found";
    assert d[4..|d| - 10] == IntText(jobId);
    if jobId >= 0 {
      ParseNatText(jobId);
    } else {
      ParseNatText(-jobId);
    }
  }
}

=== FILE: base.dfy ===
/** Small failure-carrying datatypes shared by the whole model.

    - `Option<T>` stands for Python's `Optional[...]` / `None`.
    - `Result<T>` is the value of a request handler: either its payload or an
      HTTP-style error (the `HTTPException` the handler raises).
    - `Outcome` is the abstract result of a call into code that is not part of
      this model (the store engine, the file system, the transfer library):
      it either returns normally or raises an exception whose `str(e)` is `msg`.
 */
module Base {

  datatype Option<+T> = None | Some(value: T) {
    function GetOr(default: T): T {
      match this
      case Some(v) => v
      case None => default
    }
  }

  /** An HTTP error response: the status code and the `detail` text. */
  datatype HttpError = HttpError(code: int, detail: string)

  datatype Result<+T> = Success(value: T) | Failure(error: HttpError) {
    predicate IsFailure() {
      Failure?
    }

    function PropagateFailure<U>(): Result<U>
      requires Failure?
    {
      Failure(error)
    }

    function Extract(): T
      requires Success?
    {
      value
    }
  }

  /** The result of an external call the model does not look inside: it returned, or raised `msg`. */
  datatype Outcome = Ok | Err(msg: string)

  /** The result of a call that returns a value unless it raises `msg`. */
  datatype Call<+T> = Returned(value: T) | Threw(msg: string)
}

=== FILE: config.dfy ===
/** The settings the request gate and the submit handler read
    (app/config.py), and the allow-list check. */
module Config {
  import opened Base
  import opened Text

  /** The part of the service settings the modelled logic reads. */
  datatype Settings = Settings(
    apiToken: Option<string>,
    defaultOutputPath: string,
    allowedUsers: string)

  /** The settings as they stand when the environment sets none of them. */
  function DefaultSettings(): Settings {
    Settings(None, "./datasets", "")
  }

  /** The allow-list entries: the comma-separated pieces, each stripped. */
  function AllowedEntries(allowedUsers: string): (entries: seq<string>)
    ensures |entries| == |Split(allowedUsers, ',')|
    ensures forall k :: 0 <= k < |entries| ==> entries[k] == Strip(Split(allowedUsers, ',')[k])
  {
    var parts := Split(allowedUsers, ',');
    seq(|parts|, k requires 0 <= k < |parts| => Strip(parts[k]))
  }

  /** A name is among the entries exactly when it equals one stripped
      comma-separated piece. */
  lemma EntryMembership(allowedUsers: string, username: string)
    ensures username in AllowedEntries(allowedUsers) <==>
      exists k :: 0 <= k < |Split(allowedUsers, ',')| && Strip(Split(allowedUsers, ',')[k]) == username
  {
    var entries := AllowedEntries(allowedUsers);
    var parts := Split(allowedUsers, ',');
    if username in entries {
      var k :| 0 <= k < |entries| && entries[k] == username;
      assert 0 <= k < |Split(allowedUsers, ',')| && Strip(Split(allowedUsers, ',')[k]) == username;
      assert exists k :: 0 <= k < |Split(allowedUsers, ',')| && Strip(Split(allowedUsers, ',')[k]) == username;
      assert username in AllowedEntries(allowedUsers);
    } else {
      forall k | 0 <= k < |Split(allowedUsers, ',')| ensures Strip(Split(allowedUsers, ',')[k]) != username {
        assert entries[k] == Strip(parts[k]);
      }
    }
  }

  /** `Settings.is_user_allowed`: an empty list admits everybody; otherwise
      the username must equal one stripped entry exactly (the username
      itself is not stripped). */
  function IsUserAllowed(cfg: Settings, username: string): (ok: bool)
    ensures cfg.allowedUsers == "" ==> ok
    ensures cfg.allowedUsers != "" ==>
      (ok <==> exists k :: 0 <= k < |Split(cfg.allowedUsers, ',')| && Strip(Split(cfg.allowedUsers, ',')[k]) == username)
  {
    if cfg.allowedUsers == "" then true
    else
      EntryMembership(cfg.allowedUsers, username);
      username in AllowedEntries(cfg.allowedUsers)
  }

  // ---------------------------------------------------------------------
  // The allow-list read directly off the configured string

  /** `a[i..j]` is one comma-delimited field of `a`: it holds no comma and is
      bounded on each side by a comma or an end of the string. */
  predicate IsField(a: string, i: int, j: int) {
    && 0 <= i <= j <= |a|
    && (i == 0 || a[i - 1] == ',')
    && (j == |a| || a[j] == ',')
    && forall m :: i <= m < j ==> a[m] != ','
  }

  /** Without a comma the only field is the whole string. */
  lemma FieldOfCommaFree(a: string, i: int, j: int)
    requires ',' !in a
    ensures IsField(a, i, j) <==> i == 0 && j == |a|
  {
    assert 0 < i <= |a| ==> a[i - 1] in a;
    assert 0 <= j < |a| ==> a[j] in a;
  }

  /** A field of the text after the first comma is a field of the whole. */
  lemma FieldOfTail(a: string, k: nat, i: int, j: int)
    requires k < |a| && a[k] == ','
    requires IsField(a[k + 1..], i, j)
    ensures IsField(a, i + k + 1, j + k + 1)
    ensures a[i + k + 1..j + k + 1] == a[k + 1..][i..j]
  {
  }

  /** A field of the whole is the text before the first comma (at `k`) or a
      field of the text after it. */
  lemma FieldOfWhole(a: string, k: nat, i: int, j: int)
    requires k < |a| && a[k] == ','
    requires forall m :: 0 <= m < k ==> a[m] != ','
    requires IsField(a, i, j)
    ensures || (i == 0 && j == k)
            || (i >= k + 1 && IsField(a[k + 1..], i - k - 1, j - k - 1) && a[k + 1..][i - k - 1..j - k - 1] == a[i..j])
  {
    if i == 0 {
      assert j <= k;
      assert j == k;
    } else {
      assert i - 1 >= k;
      var t := a[k + 1..];
      assert forall m :: 0 <= m < |t| ==> t[m] == a[m + k + 1];
      assert IsField(t, i - k - 1, j - k - 1);
    }
  }

  /** The pieces `split(",")` produces are exactly the comma-delimited fields. */
  lemma {:induction false} SplitFields(a: string, x: string)
    ensures x in Split(a, ',') <==> exists i, j :: IsField(a, i, j) && a[i..j] == x
    decreases |a|
  {
    var k := FirstIndex(a, ',');
    if k == |a| {
      assert Split(a, ',') == [a];
      assert IsField(a, 0, |a|) && a[0..|a|] == a;
      forall i, j | IsField(a, i, j) ensures i == 0 && j == |a| {
        FieldOfCommaFree(a, i, j);
      }
    } else {
      var t := a[k + 1..];
      assert Split(a, ',') == [a[..k]] + Split(t, ',');
      SplitFields(t, x);
      assert IsField(a, 0, k) && a[0..k] == a[..k];
      if x in Split(a, ',') && x != a[..k] {
        assert x in Split(t, ',');
        var i, j :| IsField(t, i, j) && t[i..j] == x;
        FieldOfTail(a, k, i, j);
      }
      if exists i, j :: IsField(a, i, j) && a[i..j] == x {
        var i, j :| IsField(a, i, j) && a[i..j] == x;
        FieldOfWhole(a, k, i, j);
      }
    }
  }

  /** With a non-empty list, a user is admitted exactly when some
      comma-delimited field of the list strips to the username. */
  lemma AllowedIffField(cfg: Settings, username: string)
    requires cfg.allowedUsers != ""
    ensures IsUserAllowed(cfg, username) <==>
      exists i, j :: IsField(cfg.allowedUsers, i, j) && Strip(cfg.allowedUsers[i..j]) == username
  {
    var a := cfg.allowedUsers;
    var parts := Split(a, ',');
    if IsUserAllowed(cfg, username) {
      var k :| 0 <= k < |parts| && Strip(parts[k]) == username;
      SplitFields(a, parts[k]);
      var i, j :| IsField(a, i, j) && a[i..j] == parts[k];
    }
    if exists i, j :: IsField(a, i, j) && Strip(a[i..j]) == username {
      var i, j :| IsField(a, i, j) && Strip(a[i..j]) == username;
      SplitFields(a, a[i..j]);
      var k :| 0 <= k < |parts| && parts[k] == a[i..j];
    }
  }

  /** A list made only of whitespace is non-empty, so it is enforced, and its
      single entry strips to "": no non-empty username is admitted. */
  lemma WhitespaceListAdmitsNobody(cfg: Settings, username: string)
    requires cfg.allowedUsers != "" && AllSpace(cfg.allowedUsers)
    requires username != ""
    ensures !IsUserAllowed(cfg, username)
  {
    var a := cfg.allowedUsers;
    assert ',' !in a by {
      assert forall m :: 0 <= m < |a| ==> IsSpace(a[m]);
    }
    SplitNone(a, ',');
    StripAllSpace(a);
  }

  /** Appending an entry to a non-empty list never revokes a user it admitted. */
  lemma AppendEntryKeepsUsers(cfg: Settings, entry: string, username: string)
    requires cfg.allowedUsers != ""
    requires IsUserAllowed(cfg, username)
    ensures IsUserAllowed(cfg.(allowedUsers := cfg.allowedUsers + "," + entry), username)
  {
    var a := cfg.allowedUsers;
    var cfg' := cfg.(allowedUsers := a + "," + entry);
    SplitAppend(a, entry, ',');
    assert a + "," + entry == a + [','] + entry;
    var parts := Split(a, ',');
    var k :| 0 <= k < |parts| && Strip(parts[k]) == username;
    assert Split(cfg'.allowedUsers, ',')[k] == parts[k];
  }

  /** A single entry padded with whitespace admits the bare name. */
  lemma PaddedEntryAdmitsName(cfg: Settings, left: string, name: string, right: string)
    requires AllSpace(left) && AllSpace(right)
    requires ',' !in name && IsTrimmed(name)
    requires cfg.allowedUsers == left + name + right && cfg.allowedUsers != ""
    ensures IsUserAllowed(cfg, name)
  {
    var a := cfg.allowedUsers;
    assert ',' !in a by {
      assert forall m :: 0 <= m < |left| ==> left[m] != ',';
      assert forall m :: 0 <= m < |right| ==> right[m] != ',';
    }
    SplitNone(a, ',');
    StripPadded(left, name, right);
  }

  /** The username is compared exactly as given: padding it with a space
      does not match an entry that equals the bare name. */
  lemma UsernameNotStripped(cfg: Settings, name: string)
    requires ',' !in name && IsTrimmed(name) && name != ""
    requires cfg.allowedUsers == name
    ensures IsUserAllowed(cfg, name)
    ensures !IsUserAllowed(cfg, " " + name)
  {
    SplitNone(name, ',');
    StripTrimmed(name);
  }

  /** Out of the box the allow-list is open and no API token is configured,
      so every username is admitted; downloads default to "./datasets". */
  lemma DefaultsAreOpen(username: string)
    ensures IsUserAllowed(DefaultSettings(), username)
    ensures DefaultSettings().apiToken == None
    ensures DefaultSettings().defaultOutputPath == "./datasets"
  {
  }
}

=== FILE: database.dfy ===
/** The job store (app/database.py): the `DownloadJob` row, and create /
    get / list / update over a keyed store. The relational engine is replaced
    by a map from id to row; each call is atomic. Timestamps come from a
    logical clock kept in the store, which every stamping write advances. */
module Database {
  import opened Base
  import opened Models

  /** One `download_jobs` row. The status column holds the status tag. */
  datatype Job = Job(
    id: int,
    status: string,
    exchange: string,
    dataTypes: seq<string>,
    symbols: seq<string>,
    startDate: string,
    endDate: string,
    outputPath: string,
    createdAt: nat,
    startedAt: Option<nat>,
    completedAt: Option<nat>,
    errorMessage: Option<string>,
    createdBy: string)

  /** The rows by id, the id the next insert receives, and the clock. */
  datatype Store = Store(jobs: map<int, Job>, nextId: int, clock: nat)

  /** A fresh store: no rows, ids start at 1. */
  function EmptyStore(): Store {
    Store(map[], 1, 0)
  }

  /** The columns no status update may touch. */
  predicate SameRequest(a: Job, b: Job) {
    && a.id == b.id
    && a.exchange == b.exchange
    && a.dataTypes == b.dataTypes
    && a.symbols == b.symbols
    && a.startDate == b.startDate
    && a.endDate == b.endDate
    && a.outputPath == b.outputPath
    && a.createdAt == b.createdAt
    && a.createdBy == b.createdBy
  }

  /** A stored row: keyed by its own id, below the next id, holding a status
      tag that parses, and stamped before the current clock. */
  predicate RowOk(st: Store, id: int)
    requires id in st.jobs
  {
    var job := st.jobs[id];
    && 1 <= id < st.nextId
    && job.id == id
    && ParseStatus(job.status).Some?
    && job.createdAt < st.clock
    && (job.startedAt.Some? ==> job.startedAt.value < st.clock)
    && (job.completedAt.Some? ==> job.completedAt.value < st.clock)
  }

  /** The store invariant: every row is well formed and creation times grow
      with the id (rows are created in id order). */
  predicate Valid(st: Store) {
    && st.nextId >= 1
    && (forall id :: id in st.jobs ==> RowOk(st, id))
    && (forall i, j :: i in st.jobs && j in st.jobs && i < j ==> st.jobs[i].createdAt < st.jobs[j].createdAt)
  }

  lemma EmptyStoreValid()
    ensures Valid(EmptyStore())
  {
  }

  // ---------------------------------------------------------------------
  // create_job

  /** `create_job`: inserts a PENDING row under the next id, stamped with the
      current clock, carrying the given fields unchanged and no start,
      completion or error. */
  function CreateJob(
    st: Store, exchange: string, dataTypes: seq<string>, symbols: seq<string>,
    startDate: string, endDate: string, outputPath: string, createdBy: string): (r: (Store, Job))
    ensures var (st', job) := r;
      && job.id == st.nextId
      && (Valid(st) ==> job.id !in st.jobs)
      && ParseStatus(job.status) == Some(Pending)
      && job.exchange == exchange && job.dataTypes == dataTypes && job.symbols == symbols
      && job.startDate == startDate && job.endDate == endDate
      && job.outputPath == outputPath && job.createdBy == createdBy
      && job.startedAt.None? && job.completedAt.None? && job.errorMessage.None?
      && st'.jobs == st.jobs[job.id := job]
      && st'.nextId == st.nextId + 1
    ensures Valid(st) ==> Valid(r.0)
  {
    var job := Job(st.nextId, Pending.Value(), exchange, dataTypes, symbols, startDate, endDate,
                   outputPath, st.clock, None, None, None, createdBy);
    (Store(st.jobs[st.nextId := job], st.nextId + 1, st.clock + 1), job)
  }

  // ---------------------------------------------------------------------
  // get_job

  /** `get_job`: the row under `id`, or nothing; a read never changes the store. */
  function GetJob(st: Store, id: int): (r: Option<Job>)
    ensures r.Some? <==> id in st.jobs
    ensures r.Some? ==> r.value == st.jobs[id]
  {
    if id in st.jobs then Some(st.jobs[id]) else None
  }

  // ---------------------------------------------------------------------
  // update_job_status

  /** The row-level rules of `update_job_status`, applied at time `now`. */
  function ApplyStatus(job: Job, status: JobStatus, errorMessage: Option<string>, now: nat): (r: Job)
    ensures SameRequest(r, job)
    ensures r.status == status.Value()
    // started_at is stamped on the first RUNNING write and never again
    ensures status == Running && job.startedAt.None? ==> r.startedAt == Some(now)
    ensures !(status == Running && job.startedAt.None?) ==> r.startedAt == job.startedAt
    // completed_at is stamped (or restamped) by every terminal write
    ensures status.IsTerminal() ==> r.completedAt == Some(now)
    ensures !status.IsTerminal() ==> r.completedAt == job.completedAt
    // error_message is written only with a non-empty message, and never cleared
    ensures errorMessage.Some? && errorMessage.value != "" ==> r.errorMessage == errorMessage
    ensures !(errorMessage.Some? && errorMessage.value != "") ==> r.errorMessage == job.errorMessage
  {
    var started := status == Running && job.startedAt.None?;
    var r := job.(status := status.Value());
    var r := if started then r.(startedAt := Some(now))
             else if status.IsTerminal() then r.(completedAt := Some(now))
             else r;
    match errorMessage
    case Some(m) => if m != "" then r.(errorMessage := Some(m)) else r
    case None => r
  }

  /** `update_job_status`: rewrites the row under `id` by `ApplyStatus` at the
      current clock. Any status may follow any other. An absent id is a
      silent no-op that leaves the store exactly as it was. */
  function UpdateJobStatus(st: Store, id: int, status: JobStatus, errorMessage: Option<string>): (r: Store)
    ensures id !in st.jobs ==> r == st
    ensures id in st.jobs ==> r.jobs == st.jobs[id := ApplyStatus(st.jobs[id], status, errorMessage, st.clock)]
    ensures id in st.jobs ==> r.clock == st.clock + 1
    ensures r.jobs.Keys == st.jobs.Keys && r.nextId == st.nextId
  {
    if id !in st.jobs then st
    else Store(st.jobs[id := ApplyStatus(st.jobs[id], status, errorMessage, st.clock)], st.nextId, st.clock + 1)
  }

  /** A status write keeps the store invariant: it stamps only times below
      the advanced clock, writes a valid status, and leaves creation times
      alone. */
  lemma UpdateKeepsValid(st: Store, id: int, status: JobStatus, errorMessage: Option<string>)
    requires Valid(st)
    ensures Valid(UpdateJobStatus(st, id, status, errorMessage))
  {
    var r := UpdateJobStatus(st, id, status, errorMessage);
    if id in st.jobs {
      StatusRoundTrip(status);
      forall k | k in r.jobs ensures RowOk(r, k) {
        assert RowOk(st, k);
      }
    }
  }

  /** Writing RUNNING twice stamps `started_at` once: the second write keeps it. */
  lemma RunningTwiceKeepsStart(st: Store, id: int)
    requires id in st.jobs
    ensures var st1 := UpdateJobStatus(st, id, Running, None);
            var st2 := UpdateJobStatus(st1, id, Running, None);
            st2.jobs[id].startedAt == st1.jobs[id].startedAt && st1.jobs[id].startedAt.Some?
  {
  }

  /** A repeated terminal write restamps `completed_at` with the later time. */
  lemma TerminalTwiceRestamps(st: Store, id: int, first: JobStatus, second: JobStatus)
    requires id in st.jobs && first.IsTerminal() && second.IsTerminal()
    ensures var st1 := UpdateJobStatus(st, id, first, None);
            var st2 := UpdateJobStatus(st1, id, second, None);
            && st1.jobs[id].completedAt == Some(st.clock)
            && st2.jobs[id].completedAt == Some(st.clock + 1)
  {
  }

  /** A FAILED write with an empty message leaves a null `error_message` null,
      and no write ever clears a message that is present. */
  lemma ErrorMessageRules(st: Store, id: int, status: JobStatus, msg: Option<string>)
    requires id in st.jobs
    ensures st.jobs[id].errorMessage.None? ==>
              UpdateJobStatus(st, id, Failed, Some("")).jobs[id].errorMessage.None?
    ensures st.jobs[id].errorMessage.Some? ==>
              UpdateJobStatus(st, id, status, msg).jobs[id].errorMessage.Some?
  {
  }

  /** There is no ordering check: from any row, any requested status is
      recorded, including a return to PENDING after completion. */
  lemma AnyStatusIsWritten(st: Store, id: int, status: JobStatus)
    requires id in st.jobs
    ensures ParseStatus(UpdateJobStatus(st, id, status, None).jobs[id].status) == Some(status)
  {
    StatusRoundTrip(status);
  }

  /** An update touches one row only, and in that row only the status,
      `started_at`, `completed_at` and `error_message` columns. */
  lemma UpdateFrame(st: Store, id: int, status: JobStatus, msg: Option<string>, other: int)
    requires other in st.jobs
    ensures var r := UpdateJobStatus(st, id, status, msg);
            && other in r.jobs
            && SameRequest(r.jobs[other], st.jobs[other])
            && (other != id ==> r.jobs[other] == st.jobs[other])
  {
  }

  // ---------------------------------------------------------------------
  // get_all_jobs

  /** Ids of rows below `below` (and at least 1), largest first, at most
      `limit` of them. */
  function RecentIds(jobs: map<int, Job>, below: int, limit: nat): (ids: seq<int>)
    ensures |ids| <= limit
    ensures forall k :: 0 <= k < |ids| ==> ids[k] in jobs && 1 <= ids[k] < below
    ensures forall k, l :: 0 <= k < l < |ids| ==> ids[k] > ids[l]
    decreases below
  {
    if below <= 1 || limit == 0 then []
    else if below - 1 in jobs then [below - 1] + RecentIds(jobs, below - 1, limit - 1)
    else RecentIds(jobs, below - 1, limit)
  }

  /** `RecentIds` stops only at the limit: a list shorter than the limit
      holds every id in range. */
  lemma {:induction false} RecentIdsFull(jobs: map<int, Job>, below: int, limit: nat)
    ensures var ids := RecentIds(jobs, below, limit);
      |ids| < limit ==> forall id :: id in jobs && 1 <= id < below ==> id in ids
    decreases below
  {
    if below <= 1 || limit == 0 {
    } else if below - 1 in jobs {
      RecentIdsFull(jobs, below - 1, limit - 1);
      TakenKeepsFull(jobs, below, limit, RecentIds(jobs, below - 1, limit - 1));
    } else {
      RecentIdsFull(jobs, below - 1, limit);
    }
  }

  /** The inductive step of `RecentIdsFull` when the id just below `below`
      is taken. */
  lemma TakenKeepsFull(jobs: map<int, Job>, below: int, limit: nat, rest: seq<int>)
    requires below - 1 in jobs && limit > 0
    requires |rest| < limit - 1 ==> forall id :: id in jobs && 1 <= id < below - 1 ==> id in rest
    ensures |[below - 1] + rest| < limit ==> forall id :: id in jobs && 1 <= id < below ==> id in [below - 1] + rest
  {
    var ids := [below - 1] + rest;
    if |ids| < limit {
      forall id | id in jobs && 1 <= id < below
        ensures id in ids
      {
        if id == below - 1 {
          assert ids[0] == id;
        } else {
          var k :| 0 <= k < |rest| && rest[k] == id;
          assert ids[k + 1] == id;
        }
      }
    }
  }

  /** Every id of a row in `1 .. below - 1` that `ids` leaves out is smaller
      than all the ids it holds. */
  predicate OlderOutside(jobs: map<int, Job>, below: int, ids: seq<int>) {
    forall id :: id in jobs && 1 <= id < below && id !in ids ==>
      forall k :: 0 <= k < |ids| ==> id < ids[k]
  }

  /** Any id in range that `RecentIds` leaves out is smaller than all the
      ids it holds. */
  lemma {:induction false} RecentIdsOlder(jobs: map<int, Job>, below: int, limit: nat)
    ensures OlderOutside(jobs, below, RecentIds(jobs, below, limit))
    decreases below
  {
    if below <= 1 || limit == 0 {
    } else if below - 1 in jobs {
      var rest := RecentIds(jobs, below - 1, limit - 1);
      assert RecentIds(jobs, below, limit) == [below - 1] + rest;
      RecentIdsOlder(jobs, below - 1, limit - 1);
      TakenKeepsOlder(jobs, below, rest);
    } else {
      var rest := RecentIds(jobs, below - 1, limit);
      assert RecentIds(jobs, below, limit) == rest;
      RecentIdsOlder(jobs, below - 1, limit);
      SkippedKeepsOlder(jobs, below, rest);
    }
  }

  /** The inductive step of `RecentIdsOlder` when there is no row just
      below `below`. */
  lemma SkippedKeepsOlder(jobs: map<int, Job>, below: int, ids: seq<int>)
    requires below - 1 !in jobs && OlderOutside(jobs, below - 1, ids)
    ensures OlderOutside(jobs, below, ids)
  {
  }

  /** The inductive step of `RecentIdsOlder` when the id just below `below`
      is taken. */
  lemma TakenKeepsOlder(jobs: map<int, Job>, below: int, rest: seq<int>)
    requires OlderOutside(jobs, below - 1, rest)
    ensures OlderOutside(jobs, below, [below - 1] + rest)
  {
    var ids := [below - 1] + rest;
    forall id | id in jobs && 1 <= id < below && id !in ids
      ensures forall k :: 0 <= k < |ids| ==> id < ids[k]
    {
      assert id != ids[0];
      forall k | 0 <= k < |rest| ensures rest[k] != id {
        assert rest[k] == ids[k + 1];
      }
      forall k | 1 <= k < |ids| ensures id < ids[k] {
        assert ids[k] == rest[k - 1];
      }
    }
  }

  /** The row count `LIMIT` lets through: SQLite reads a negative limit as none. */
  function LimitBound(st: Store, limit: int): nat {
    if limit < 0 then |st.jobs| else limit
  }

  /** The rows under `ids`, in that order. */
  function RowsOf(jobs: map<int, Job>, ids: seq<int>): (r: seq<Job>)
    requires forall k :: 0 <= k < |ids| ==> ids[k] in jobs
    ensures |r| == |ids|
    ensures forall k :: 0 <= k < |r| ==> r[k] == jobs[ids[k]]
  {
    seq(|ids|, k requires 0 <= k < |ids| => jobs[ids[k]])
  }

  /** Under the store invariant, rows listed by decreasing id are listed by
      decreasing creation time, and any row left out is older than all the
      rows listed. */
  lemma RecentRows(st: Store, bound: nat)
    requires Valid(st)
    ensures var ids := RecentIds(st.jobs, st.nextId, bound);
            var r := RowsOf(st.jobs, ids);
            && (forall k :: 0 <= k < |r| ==> r[k].id == ids[k])
            && (forall k, l :: 0 <= k < l < |r| ==> r[k].createdAt > r[l].createdAt)
            && (forall id :: id in st.jobs && id !in ids ==> forall k :: 0 <= k < |r| ==> st.jobs[id].createdAt < r[k].createdAt)
            && (|r| < bound ==> forall id :: id in st.jobs ==> id in ids)
  {
    RecentRowsNewestFirst(st, bound);
    RecentRowsOlder(st, bound);
    RecentIdsFull(st.jobs, st.nextId, bound);
    IdsInRange(st);
  }

  /** Every id of a well-formed store lies in `1 .. nextId - 1`. */
  lemma IdsInRange(st: Store)
    requires Valid(st)
    ensures forall id :: id in st.jobs ==> 1 <= id < st.nextId
  {
    forall id | id in st.jobs ensures 1 <= id < st.nextId {
      assert RowOk(st, id);
    }
  }

  /** Rows listed by decreasing id are listed by decreasing creation time. */
  lemma RecentRowsNewestFirst(st: Store, bound: nat)
    requires Valid(st)
    ensures var r := RowsOf(st.jobs, RecentIds(st.jobs, st.nextId, bound));
      forall k, l :: 0 <= k < l < |r| ==> r[k].createdAt > r[l].createdAt
  {
    var ids := RecentIds(st.jobs, st.nextId, bound);
    var r := RowsOf(st.jobs, ids);
    forall k, l | 0 <= k < l < |r| ensures r[k].createdAt > r[l].createdAt {
      assert ids[k] > ids[l];
    }
  }

  /** A row left out of the listing is older than every row listed. */
  lemma RecentRowsOlder(st: Store, bound: nat)
    requires Valid(st)
    ensures var ids := RecentIds(st.jobs, st.nextId, bound);
      var r := RowsOf(st.jobs, ids);
      forall id :: id in st.jobs && id !in ids ==> forall k :: 0 <= k < |r| ==> st.jobs[id].createdAt < r[k].createdAt
  {
    var ids := RecentIds(st.jobs, st.nextId, bound);
    var r := RowsOf(st.jobs, ids);
    IdsInRange(st);
    RecentIdsOlder(st.jobs, st.nextId, bound);
    forall id | id in st.jobs && id !in ids
      ensures forall k :: 0 <= k < |r| ==> st.jobs[id].createdAt < r[k].createdAt
    {
      assert forall k :: 0 <= k < |ids| ==> id < ids[k];
    }
  }

  /** `get_all_jobs(limit)`: the most recently created rows, newest first,
      at most `limit` of them (all of them for a negative limit). */
  function GetAllJobs(st: Store, limit: int): (r: seq<Job>)
    requires Valid(st)
    ensures |r| <= LimitBound(st, limit)
    ensures forall k :: 0 <= k < |r| ==> r[k].id in st.jobs && st.jobs[r[k].id] == r[k]
    ensures forall k, l :: 0 <= k < l < |r| ==> r[k].createdAt > r[l].createdAt
    ensures |r| < LimitBound(st, limit) ==> forall id :: id in st.jobs ==> exists k :: 0 <= k < |r| && r[k].id == id
    ensures forall id :: id in st.jobs && (forall k :: 0 <= k < |r| ==> r[k].id != id) ==>
              forall k :: 0 <= k < |r| ==> st.jobs[id].createdAt < r[k].createdAt
  {
    var ids := RecentIds(st.jobs, st.nextId, LimitBound(st, limit));
    RecentRows(st, LimitBound(st, limit));
    RowsOf(st.jobs, ids)
  }
}

=== FILE: downloader.dfy ===
/** The execution worker (`TardisDownloader.download_data`,
    app/downloader.py): one sequential run over the store. The directory
    creation, the transfer and the chat transport are abstract: an `Effects`
    value says how each call ends. A run yields the final store, the trace of
    calls it made, and the exception (if any) that escapes the worker. */
module Downloader {
  import opened Base
  import opened Models
  import opened Database
  import opened Notifier

  /** The arguments the submit handler schedules the worker with. */
  datatype DownloadArgs = DownloadArgs(
    jobId: int,
    exchange: string,
    dataTypes: seq<string>,
    symbols: seq<string>,
    startDate: string,
    endDate: string,
    outputPath: string)

  /** How each external call of one run ends, in the order they are made. */
  datatype Effects = Effects(
    runningUpdate: Outcome,
    startedSend: Delivery,
    makeDir: Outcome,
    transfer: Outcome,
    completedUpdate: Outcome,
    completedSend: Delivery,
    failedUpdate: Outcome,
    failedSend: Delivery)

  /** One call the worker makes: a status write, a notification, the
      directory creation, or the transfer. */
  datatype Event =
    | StatusWrite(status: JobStatus, errorMessage: Option<string>)
    | Sent(notice: Notice)
    | MakeDir(path: string)
    | Transfer(exchange: string, dataTypes: seq<string>, symbols: seq<string>,
               fromDate: string, toDate: string, downloadDir: string)

  /** The end of a run (or of its `try` block): the store, the calls made,
      and the message of the exception raised, if one was. */
  datatype Run = Run(store: Store, trace: seq<Event>, raised: Option<string>)

  function TransferOf(a: DownloadArgs): Event {
    Transfer(a.exchange, a.dataTypes, a.symbols, a.startDate, a.endDate, a.outputPath)
  }

  /** A status write that either commits or raises; a failed write rolls
      back, leaving the store as it was. */
  function Write(st: Store, id: int, status: JobStatus, msg: Option<string>, o: Outcome): Store {
    if o.Ok? then UpdateJobStatus(st, id, status, msg) else st
  }

  /** The duration read off a snapshot: elapsed clock time since its
      `started_at`, or nothing when the snapshot has no start. */
  function ElapsedSince(startedAt: Option<nat>, now: nat): Option<int> {
    match startedAt
    case Some(s) => Some(now - s)
    case None => None
  }

  /** The `try` block, run against the snapshot `job` read before it. */
  function TryBlock(st: Store, a: DownloadArgs, job: Job, fx: Effects): (r: Run)
    ensures r.store.jobs.Keys == st.jobs.Keys && r.store.nextId == st.nextId
  {
    var t1 := [StatusWrite(Running, None)];
    if fx.runningUpdate.Err? then Run(st, t1, Some(fx.runningUpdate.msg))
    else
      var st1 := UpdateJobStatus(st, a.jobId, Running, None);
      var t2 := t1 + [Sent(StartedNotice(a.jobId, a.exchange, a.symbols, a.startDate, a.endDate, job.createdBy))];
      if Notify(fx.startedSend).Err? then Run(st1, t2, Some(Notify(fx.startedSend).msg))
      else
        var t3 := t2 + [MakeDir(a.outputPath)];
        if fx.makeDir.Err? then Run(st1, t3, Some(fx.makeDir.msg))
        else
          var t4 := t3 + [TransferOf(a)];
          if fx.transfer.Err? then Run(st1, t4, Some(fx.transfer.msg))
          else
            var duration := ElapsedSince(job.startedAt, st1.clock);
            var t5 := t4 + [StatusWrite(Completed, None)];
            if fx.completedUpdate.Err? then Run(st1, t5, Some(fx.completedUpdate.msg))
            else
              var st2 := UpdateJobStatus(st1, a.jobId, Completed, None);
              var t6 := t5 + [Sent(CompletedNotice(a.jobId, a.exchange, a.symbols, duration))];
              if Notify(fx.completedSend).Err? then Run(st2, t6, Some(Notify(fx.completedSend).msg))
              else Run(st2, t6, None)
  }

  /** The `except` block for an exception with message `error`, continuing
      the trace `t`. What it raises itself escapes the worker. */
  function ExceptBlock(st: Store, a: DownloadArgs, error: string, fx: Effects, t: seq<Event>): (r: Run)
    ensures r.store.jobs.Keys == st.jobs.Keys && r.store.nextId == st.nextId
  {
    var t1 := t + [StatusWrite(Failed, Some(error))];
    if fx.failedUpdate.Err? then Run(st, t1, Some(fx.failedUpdate.msg))
    else
      var st1 := UpdateJobStatus(st, a.jobId, Failed, Some(error));
      var t2 := t1 + [Sent(FailedNotice(a.jobId, a.exchange, a.symbols, error))];
      Run(st1, t2, if Notify(fx.failedSend).Err? then Some(Notify(fx.failedSend).msg) else None)
  }

  /** `download_data`: re-read the job; if it is gone, stop with nothing
      done; otherwise run the `try` block and, when it raised, the `except`
      block with the raised message. */
  function DownloadData(st: Store, a: DownloadArgs, fx: Effects): (r: Run)
    ensures a.jobId !in st.jobs ==> r == Run(st, [], None)
    ensures r.store.jobs.Keys == st.jobs.Keys && r.store.nextId == st.nextId
  {
    match GetJob(st, a.jobId)
    case None => Run(st, [], None)
    case Some(job) =>
      var s := TryBlock(st, a, job, fx);
      if s.raised.None? then s
      else ExceptBlock(s.store, a, s.raised.value, fx, s.trace)
  }

  // ---------------------------------------------------------------------
  // The protocol a run follows, stated without the store

  /** The calls of a run in which nothing raises. */
  function HappyTrace(a: DownloadArgs, createdBy: string, duration: Option<int>): seq<Event> {
    [ StatusWrite(Running, None),
      Sent(StartedNotice(a.jobId, a.exchange, a.symbols, a.startDate, a.endDate, createdBy)),
      MakeDir(a.outputPath),
      TransferOf(a),
      StatusWrite(Completed, None),
      Sent(CompletedNotice(a.jobId, a.exchange, a.symbols, duration)) ]
  }

  /** The calls of the failure branch for an exception with message `error`. */
  function FailureTail(a: DownloadArgs, error: string): seq<Event> {
    [ StatusWrite(Failed, Some(error)),
      Sent(FailedNotice(a.jobId, a.exchange, a.symbols, error)) ]
  }

  /** How many calls of the `try` block are made: all six, or up to and
      including the first that raises. */
  function TryCalls(fx: Effects): nat {
    if fx.runningUpdate.Err? then 1
    else if fx.startedSend.OtherError? then 2
    else if fx.makeDir.Err? then 3
    else if fx.transfer.Err? then 4
    else if fx.completedUpdate.Err? then 5
    else 6
  }

  /** The message of the first call of the `try` block that raises. */
  function TryError(fx: Effects): Option<string> {
    if fx.runningUpdate.Err? then Some(fx.runningUpdate.msg)
    else if fx.startedSend.OtherError? then Some(fx.startedSend.msg)
    else if fx.makeDir.Err? then Some(fx.makeDir.msg)
    else if fx.transfer.Err? then Some(fx.transfer.msg)
    else if fx.completedUpdate.Err? then Some(fx.completedUpdate.msg)
    else if fx.completedSend.OtherError? then Some(fx.completedSend.msg)
    else None
  }

  /** How many calls of the failure branch are made. */
  function TailCalls(fx: Effects): nat {
    if fx.failedUpdate.Err? then 1 else 2
  }

  /** The trace the protocol prescribes: a prefix of the happy path, then,
      when the `try` block raised, a prefix of the failure branch carrying
      that same message. */
  function ProtocolTrace(a: DownloadArgs, createdBy: string, duration: Option<int>, fx: Effects): seq<Event> {
    HappyTrace(a, createdBy, duration)[..TryCalls(fx)]
    + match TryError(fx)
      case None => []
      case Some(e) => FailureTail(a, e)[..TailCalls(fx)]
  }

  /** The `try` block makes the first `TryCalls(fx)` calls of the happy path
      and raises exactly `TryError(fx)`. */
  lemma TryFollowsProtocol(st: Store, a: DownloadArgs, job: Job, fx: Effects)
    requires a.jobId in st.jobs
    ensures var r := TryBlock(st, a, job, fx);
      && r.trace == HappyTrace(a, job.createdBy, ElapsedSince(job.startedAt, st.clock + 1))[..TryCalls(fx)]
      && r.raised == TryError(fx)
  {
    var h := HappyTrace(a, job.createdBy, ElapsedSince(job.startedAt, st.clock + 1));
    var r := TryBlock(st, a, job, fx);
    assert UpdateJobStatus(st, a.jobId, Running, None).clock == st.clock + 1;
    if fx.runningUpdate.Err? {
      assert r.trace == h[..1];
    } else if fx.startedSend.OtherError? {
      assert r.trace == h[..2];
    } else if fx.makeDir.Err? {
      assert r.trace == h[..3];
    } else if fx.transfer.Err? {
      assert r.trace == h[..4];
    } else if fx.completedUpdate.Err? {
      assert r.trace == h[..5];
    } else {
      assert r.trace == h[..6];
    }
  }

  /** The protocol trace, call by call: the first `TryCalls(fx)` calls of
      the happy path, then, when the `try` block raised, the calls of the
      failure branch. */
  lemma ProtocolAt(a: DownloadArgs, createdBy: string, duration: Option<int>, fx: Effects)
    ensures var t := ProtocolTrace(a, createdBy, duration, fx);
      var n := TryCalls(fx);
      && |t| == n + (if TryError(fx).None? then 0 else TailCalls(fx))
      && (forall k :: 0 <= k < n ==> t[k] == HappyTrace(a, createdBy, duration)[k])
      && (TryError(fx).Some? ==>
            forall k :: n <= k < |t| ==> t[k] == FailureTail(a, TryError(fx).value)[k - n])
  {
  }

  /** Every run on a present job follows the protocol: the trace is fixed by
      the effects, the snapshot's requester and the snapshot's start time
      (read before the RUNNING write); and exactly what escapes the worker
      is what the failure branch itself raised. */
  lemma RunFollowsProtocol(st: Store, a: DownloadArgs, fx: Effects)
    requires a.jobId in st.jobs
    ensures var job := st.jobs[a.jobId];
      var r := DownloadData(st, a, fx);
      && r.trace == ProtocolTrace(a, job.createdBy, ElapsedSince(job.startedAt, st.clock + 1), fx)
      && r.raised == (if TryError(fx).None? then None
                      else if fx.failedUpdate.Err? then Some(fx.failedUpdate.msg)
                      else if fx.failedSend.OtherError? then Some(fx.failedSend.msg)
                      else None)
  {
    var job := st.jobs[a.jobId];
    var s := TryBlock(st, a, job, fx);
    TryFollowsProtocol(st, a, job, fx);
    if s.raised.Some? {
      var e := s.raised.value;
      var tail := FailureTail(a, e);
      var r := ExceptBlock(s.store, a, e, fx, s.trace);
      if fx.failedUpdate.Err? {
        assert r.trace == s.trace + tail[..1];
      } else {
        assert r.trace == s.trace + tail[..2];
      }
    }
  }

  // ---------------------------------------------------------------------
  // What a run leaves in the store

  /** Whether the run reaches and commits the COMPLETED write. */
  predicate CompletedWritten(fx: Effects) {
    && fx.runningUpdate.Ok? && !fx.startedSend.OtherError? && fx.makeDir.Ok?
    && fx.transfer.Ok? && fx.completedUpdate.Ok?
  }

  /** The store after the `try` block: untouched when the RUNNING write
      failed, otherwise that write, followed by the COMPLETED write when it
      was reached and committed. */
  lemma TryStore(st: Store, a: DownloadArgs, job: Job, fx: Effects)
    ensures var r := TryBlock(st, a, job, fx);
      var st1 := UpdateJobStatus(st, a.jobId, Running, None);
      r.store == (if fx.runningUpdate.Err? then st
                  else if CompletedWritten(fx) then UpdateJobStatus(st1, a.jobId, Completed, None)
                  else st1)
  {
  }

  /** The store a run on a present job leaves, stated from the effects
      alone: the RUNNING write when it commits, the COMPLETED write when it
      is reached and commits, and, when the `try` block raised, the FAILED
      write with that message when it commits. */
  function StoreAfter(st: Store, id: int, fx: Effects): Store {
    var st1 := Write(st, id, Running, None, fx.runningUpdate);
    var st2 := if CompletedWritten(fx) then UpdateJobStatus(st1, id, Completed, None) else st1;
    match TryError(fx)
    case None => st2
    case Some(e) => Write(st2, id, Failed, Some(e), fx.failedUpdate)
  }

  /** A run on a present job leaves exactly the store `StoreAfter` names. */
  lemma RunStore(st: Store, a: DownloadArgs, fx: Effects)
    requires a.jobId in st.jobs
    ensures DownloadData(st, a, fx).store == StoreAfter(st, a.jobId, fx)
  {
    var job := st.jobs[a.jobId];
    TryStore(st, a, job, fx);
    TryFollowsProtocol(st, a, job, fx);
  }

  /** A run keeps the store invariant: every write it commits does. */
  lemma RunKeepsValid(st: Store, a: DownloadArgs, fx: Effects)
    requires Valid(st)
    ensures Valid(DownloadData(st, a, fx).store)
  {
    if a.jobId in st.jobs {
      RunStore(st, a, fx);
      StoreAfterKeepsValid(st, a.jobId, fx);
    }
  }

  /** `RunKeepsValid`, stated of `StoreAfter`. */
  lemma StoreAfterKeepsValid(st: Store, id: int, fx: Effects)
    requires Valid(st)
    ensures Valid(StoreAfter(st, id, fx))
  {
    var st1 := Write(st, id, Running, None, fx.runningUpdate);
    WriteKeepsValid(st, id, Running, None, fx.runningUpdate);
    var st2 := Write(st1, id, Completed, None, if CompletedWritten(fx) then Ok else Err(""));
    WriteKeepsValid(st1, id, Completed, None, if CompletedWritten(fx) then Ok else Err(""));
    assert st2 == (if CompletedWritten(fx) then UpdateJobStatus(st1, id, Completed, None) else st1);
    if TryError(fx).Some? {
      WriteKeepsValid(st2, id, Failed, TryError(fx), fx.failedUpdate);
    }
  }

  /** A status write, committed or rolled back, keeps the store invariant. */
  lemma WriteKeepsValid(st: Store, id: int, status: JobStatus, msg: Option<string>, o: Outcome)
    requires Valid(st)
    ensures Valid(Write(st, id, status, msg, o))
  {
    if o.Ok? {
      UpdateKeepsValid(st, id, status, msg);
    }
  }

  /** When nothing in the `try` block raises, the row ends COMPLETED with its
      start before its completion and the error column untouched. */
  lemma CompletedRow(st: Store, id: int, fx: Effects)
    requires Valid(st) && id in st.jobs && TryError(fx).None?
    ensures var before := st.jobs[id];
      var after := StoreAfter(st, id, fx).jobs[id];
      && SameRequest(after, before)
      && ParseStatus(after.status) == Some(Completed)
      && after.startedAt.Some? && after.completedAt == Some(st.clock + 1)
      && after.startedAt.value < after.completedAt.value
      && after.errorMessage == before.errorMessage
  {
    assert CompletedWritten(fx);
    StatusRoundTrip(Completed);
    var before := st.jobs[id];
    var j1 := ApplyStatus(before, Running, None, st.clock);
    var j2 := ApplyStatus(j1, Completed, None, st.clock + 1);
    assert RowOk(st, id);
    assert j1.startedAt.Some? && j1.startedAt.value <= st.clock;
    RunningThenCompleted(st, id, fx);
  }

  /** With nothing raised, the run's row is the snapshot rewritten RUNNING
      and then COMPLETED at the next tick. */
  lemma RunningThenCompleted(st: Store, id: int, fx: Effects)
    requires id in st.jobs && TryError(fx).None?
    ensures StoreAfter(st, id, fx).jobs[id]
         == ApplyStatus(ApplyStatus(st.jobs[id], Running, None, st.clock), Completed, None, st.clock + 1)
  {
    assert CompletedWritten(fx);
    var st1 := UpdateJobStatus(st, id, Running, None);
    assert st1.jobs[id] == ApplyStatus(st.jobs[id], Running, None, st.clock);
  }

  /** When the `try` block raised and the FAILED write committed, the row
      ends FAILED, stamped complete, holding the raised message when that is
      non-empty. */
  lemma FailedRow(st: Store, id: int, fx: Effects)
    requires Valid(st) && id in st.jobs && TryError(fx).Some? && fx.failedUpdate.Ok?
    ensures var before := st.jobs[id];
      var after := StoreAfter(st, id, fx).jobs[id];
      && SameRequest(after, before)
      && ParseStatus(after.status) == Some(Failed)
      && after.completedAt.Some?
      && after.errorMessage == (if TryError(fx).value != "" then TryError(fx) else before.errorMessage)
  {
    StatusRoundTrip(Failed);
    var st1 := Write(st, id, Running, None, fx.runningUpdate);
    var st2 := if CompletedWritten(fx) then UpdateJobStatus(st1, id, Completed, None) else st1;
    assert st2.jobs[id].errorMessage == st.jobs[id].errorMessage;
    assert SameRequest(st2.jobs[id], st.jobs[id]);
  }

  /** A run touches no row but its own. */
  lemma OtherRows(st: Store, id: int, fx: Effects)
    ensures forall other :: other in st.jobs && other != id ==>
      StoreAfter(st, id, fx).jobs[other] == st.jobs[other]
  {
  }

  /** The row a run leaves behind. A run in which nothing raises ends
      COMPLETED with its start before its completion and the error column
      untouched. A run whose `try` block raised and whose FAILED write
      committed ends FAILED, stamped complete, holding the raised message
      when that is non-empty. Every other row is left as it was. */
  lemma FinalRow(st: Store, a: DownloadArgs, fx: Effects)
    requires Valid(st) && a.jobId in st.jobs
    ensures var before := st.jobs[a.jobId];
      var after := DownloadData(st, a, fx).store.jobs[a.jobId];
      && SameRequest(after, before)
      && (TryError(fx).None? ==>
            && ParseStatus(after.status) == Some(Completed)
            && after.startedAt.Some? && after.completedAt.Some?
            && after.startedAt.value < after.completedAt.value
            && after.errorMessage == before.errorMessage)
      && (TryError(fx).Some? && fx.failedUpdate.Ok? ==>
            && ParseStatus(after.status) == Some(Failed)
            && after.completedAt.Some?
            && after.errorMessage == (if TryError(fx).value != "" then TryError(fx) else before.errorMessage))
    ensures forall other :: other in st.jobs && other != a.jobId ==>
      DownloadData(st, a, fx).store.jobs[other] == st.jobs[other]
  {
    RunStore(st, a, fx);
    OtherRows(st, a.jobId, fx);
    if TryError(fx).None? {
      CompletedRow(st, a.jobId, fx);
    } else if fx.failedUpdate.Ok? {
      FailedRow(st, a.jobId, fx);
    } else {
      SameRowAfter(st, a.jobId, fx);
    }
  }

  /** Whatever the effects, the run's row keeps its request fields. */
  lemma SameRowAfter(st: Store, id: int, fx: Effects)
    requires id in st.jobs
    ensures SameRequest(StoreAfter(st, id, fx).jobs[id], st.jobs[id])
  {
    var st1 := Write(st, id, Running, None, fx.runningUpdate);
    var st2 := if CompletedWritten(fx) then UpdateJobStatus(st1, id, Completed, None) else st1;
    assert SameRequest(st2.jobs[id], st.jobs[id]);
  }

  /** A failure after the COMPLETED write (the completion notice raising)
      still runs the failure branch: the trace holds the COMPLETED write and
      then the FAILED write, and the row ends FAILED, its completion time
      stamped a second time. */
  lemma CompletedThenFailed(st: Store, a: DownloadArgs, fx: Effects)
    requires Valid(st) && a.jobId in st.jobs
    requires CompletedWritten(fx) && fx.completedSend.OtherError? && fx.failedUpdate.Ok?
    ensures var r := DownloadData(st, a, fx);
      && |r.trace| == 8
      && r.trace[4] == StatusWrite(Completed, None)
      && r.trace[6] == StatusWrite(Failed, Some(fx.completedSend.msg))
      && ParseStatus(r.store.jobs[a.jobId].status) == Some(Failed)
      && r.store.jobs[a.jobId].completedAt == Some(st.clock + 2)
  {
    CompletedThenFailedTrace(st, a, fx);
    CompletedThenFailedRow(st, a.jobId, fx);
    RunStore(st, a, fx);
  }

  /** The trace half of `CompletedThenFailed`. */
  lemma CompletedThenFailedTrace(st: Store, a: DownloadArgs, fx: Effects)
    requires a.jobId in st.jobs
    requires CompletedWritten(fx) && fx.completedSend.OtherError? && fx.failedUpdate.Ok?
    ensures var t := DownloadData(st, a, fx).trace;
      && |t| == 8
      && t[4] == StatusWrite(Completed, None)
      && t[6] == StatusWrite(Failed, Some(fx.completedSend.msg))
  {
    var job := st.jobs[a.jobId];
    RunFollowsProtocol(st, a, fx);
    ProtocolAt(a, job.createdBy, ElapsedSince(job.startedAt, st.clock + 1), fx);
    assert TryCalls(fx) == 6 && TryError(fx) == Some(fx.completedSend.msg) && TailCalls(fx) == 2;
  }

  /** The row half of `CompletedThenFailed`, stated of `StoreAfter`. */
  lemma CompletedThenFailedRow(st: Store, id: int, fx: Effects)
    requires id in st.jobs
    requires CompletedWritten(fx) && fx.completedSend.OtherError? && fx.failedUpdate.Ok?
    ensures var row := StoreAfter(st, id, fx).jobs[id];
      && ParseStatus(row.status) == Some(Failed)
      && row.completedAt == Some(st.clock + 2)
  {
    StatusRoundTrip(Failed);
    var msg := fx.completedSend.msg;
    var j := ApplyStatus(ApplyStatus(st.jobs[id], Running, None, st.clock), Completed, None, st.clock + 1);
    assert StoreAfter(st, id, fx).jobs[id] == ApplyStatus(j, Failed, Some(msg), st.clock + 2) by {
      assert TryError(fx) == Some(msg);
      var st1 := UpdateJobStatus(st, id, Running, None);
      var st2 := UpdateJobStatus(st1, id, Completed, None);
      assert st2.jobs[id] == j && st2.clock == st.clock + 2;
    }
  }

  /** A store outage: when both the RUNNING and the FAILED writes raise,
      the run makes just those two calls, sends no notice at all, leaves the
      store (and so the PENDING row) as it was, and lets the FAILED write's
      error escape the worker. */
  lemma StoreDownNoNotice(st: Store, a: DownloadArgs, fx: Effects)
    requires a.jobId in st.jobs
    requires fx.runningUpdate.Err? && fx.failedUpdate.Err?
    ensures var r := DownloadData(st, a, fx);
      && r.trace == [StatusWrite(Running, None), StatusWrite(Failed, Some(fx.runningUpdate.msg))]
      && r.store == st
      && r.raised == Some(fx.failedUpdate.msg)
  {
    var job := st.jobs[a.jobId];
    var d := ElapsedSince(job.startedAt, st.clock + 1);
    RunFollowsProtocol(st, a, fx);
    ProtocolAt(a, job.createdBy, d, fx);
    RunStore(st, a, fx);
    assert TryCalls(fx) == 1 && TryError(fx) == Some(fx.runningUpdate.msg) && TailCalls(fx) == 1;
    assert !CompletedWritten(fx);
  }

  /** When the completion notice raises and the FAILED write raises too,
      the row stays COMPLETED, no failure notice is sent, and the FAILED
      write's error escapes the worker. */
  lemma CompletedStaysCompleted(st: Store, a: DownloadArgs, fx: Effects)
    requires a.jobId in st.jobs
    requires CompletedWritten(fx) && fx.completedSend.OtherError? && fx.failedUpdate.Err?
    ensures var r := DownloadData(st, a, fx);
      && |r.trace| == 7
      && r.trace[6] == StatusWrite(Failed, Some(fx.completedSend.msg))
      && (forall k :: 0 <= k < |r.trace| && r.trace[k].Sent? ==> !r.trace[k].notice.FailedNotice?)
      && ParseStatus(r.store.jobs[a.jobId].status) == Some(Completed)
      && r.raised == Some(fx.failedUpdate.msg)
  {
    var job := st.jobs[a.jobId];
    var d := ElapsedSince(job.startedAt, st.clock + 1);
    RunFollowsProtocol(st, a, fx);
    ProtocolAt(a, job.createdBy, d, fx);
    RunStore(st, a, fx);
    assert TryCalls(fx) == 6 && TryError(fx) == Some(fx.completedSend.msg) && TailCalls(fx) == 1;
    StatusRoundTrip(Completed);
    var st1 := UpdateJobStatus(st, a.jobId, Running, None);
    assert StoreAfter(st, a.jobId, fx) == UpdateJobStatus(st1, a.jobId, Completed, None);
  }

  /** The completion notice reports the duration from the snapshot read
      before the RUNNING write: for a job that had never started, it carries
      no duration line, although that write has just stamped a start. */
  lemma FreshJobHasNoDuration(st: Store, a: DownloadArgs, fx: Effects)
    requires a.jobId in st.jobs && st.jobs[a.jobId].startedAt.None?
    requires TryCalls(fx) == 6
    ensures var r := DownloadData(st, a, fx);
      && r.trace[5] == Sent(CompletedNotice(a.jobId, a.exchange, a.symbols, None))
      && r.store.jobs[a.jobId].startedAt == Some(st.clock)
  {
    var job := st.jobs[a.jobId];
    RunFollowsProtocol(st, a, fx);
    TryStore(st, a, job, fx);
  }

  /** The transfer is attempted at most once, as the fourth call, after the
      RUNNING write, the start notice and the directory creation; and it is
      attempted exactly when none of those three raised. */
  lemma TransferOnceAfterSetup(st: Store, a: DownloadArgs, fx: Effects)
    requires a.jobId in st.jobs
    ensures var t := DownloadData(st, a, fx).trace;
      && (forall k :: 0 <= k < |t| && t[k].Transfer? ==>
            && k == 3 && t[k] == TransferOf(a)
            && t[0] == StatusWrite(Running, None) && t[1].Sent? && t[2] == MakeDir(a.outputPath))
      && ((exists k :: 0 <= k < |t| && t[k].Transfer?) <==>
            fx.runningUpdate.Ok? && !fx.startedSend.OtherError? && fx.makeDir.Ok?)
  {
    var job := st.jobs[a.jobId];
    RunFollowsProtocol(st, a, fx);
    ProtocolTransfer(a, job.createdBy, ElapsedSince(job.startedAt, st.clock + 1), fx);
  }

  /** `TransferOnceAfterSetup`, stated of the protocol trace. */
  lemma ProtocolTransfer(a: DownloadArgs, createdBy: string, duration: Option<int>, fx: Effects)
    ensures var t := ProtocolTrace(a, createdBy, duration, fx);
      && (forall k :: 0 <= k < |t| && t[k].Transfer? ==>
            && k == 3 && t[k] == TransferOf(a)
            && t[0] == StatusWrite(Running, None) && t[1].Sent? && t[2] == MakeDir(a.outputPath))
      && ((exists k :: 0 <= k < |t| && t[k].Transfer?) <==>
            fx.runningUpdate.Ok? && !fx.startedSend.OtherError? && fx.makeDir.Ok?)
  {
    var t := ProtocolTrace(a, createdBy, duration, fx);
    var h := HappyTrace(a, createdBy, duration);
    var n := TryCalls(fx);
    ProtocolAt(a, createdBy, duration, fx);
    forall k | n <= k < |t|
      ensures !t[k].Transfer?
    {
      assert t[k] == FailureTail(a, TryError(fx).value)[k - n];
    }
    if fx.runningUpdate.Ok? && !fx.startedSend.OtherError? && fx.makeDir.Ok? {
      assert n >= 4;
      assert t[3] == h[3];
    }
  }

  /** Two effect vectors that agree on every outcome the worker observes. */
  predicate SameObservable(fx1: Effects, fx2: Effects) {
    && fx1.runningUpdate == fx2.runningUpdate
    && Notify(fx1.startedSend) == Notify(fx2.startedSend)
    && fx1.makeDir == fx2.makeDir
    && fx1.transfer == fx2.transfer
    && fx1.completedUpdate == fx2.completedUpdate
    && Notify(fx1.completedSend) == Notify(fx2.completedSend)
    && fx1.failedUpdate == fx2.failedUpdate
    && Notify(fx1.failedSend) == Notify(fx2.failedSend)
  }

  /** The run depends on the effects only through what the worker observes. */
  lemma RunDependsOnObservable(st: Store, a: DownloadArgs, fx1: Effects, fx2: Effects)
    requires SameObservable(fx1, fx2)
    ensures DownloadData(st, a, fx1) == DownloadData(st, a, fx2)
  {
    if a.jobId in st.jobs {
      var job := st.jobs[a.jobId];
      assert TryBlock(st, a, job, fx1) == TryBlock(st, a, job, fx2);
      var s := TryBlock(st, a, job, fx1);
      if s.raised.Some? {
        assert ExceptBlock(s.store, a, s.raised.value, fx1, s.trace)
            == ExceptBlock(s.store, a, s.raised.value, fx2, s.trace);
      }
    }
  }

  /** A notification the transport rejects with a `TelegramError` changes
      nothing about the run: it goes on exactly as if it had been delivered. */
  lemma TelegramErrorsIgnored(st: Store, a: DownloadArgs, fx: Effects, m1: string, m2: string, m3: string)
    ensures DownloadData(st, a, fx.(startedSend := TelegramError(m1)))
         == DownloadData(st, a, fx.(startedSend := Delivered))
    ensures DownloadData(st, a, fx.(completedSend := TelegramError(m2)))
         == DownloadData(st, a, fx.(completedSend := Delivered))
    ensures DownloadData(st, a, fx.(failedSend := TelegramError(m3)))
         == DownloadData(st, a, fx.(failedSend := Delivered))
  {
    RunDependsOnObservable(st, a, fx.(startedSend := TelegramError(m1)), fx.(startedSend := Delivered));
    RunDependsOnObservable(st, a, fx.(completedSend := TelegramError(m2)), fx.(completedSend := Delivered));
    RunDependsOnObservable(st, a, fx.(failedSend := TelegramError(m3)), fx.(failedSend := Delivered));
  }

  /** The worker's status writes: the first call is the RUNNING write, and
      every write is RUNNING, COMPLETED or FAILED (never PENDING or
      CANCELLED); COMPLETED and FAILED are written without and with the
      raised message respectively. */
  lemma WorkerStatuses(st: Store, a: DownloadArgs, fx: Effects)
    requires a.jobId in st.jobs
    ensures var t := DownloadData(st, a, fx).trace;
      && |t| >= 1 && t[0] == StatusWrite(Running, None)
      && (forall k :: 0 <= k < |t| && t[k].StatusWrite? ==>
            || (k == 0 && t[k].status == Running)
            || t[k] == StatusWrite(Completed, None)
            || (t[k].status == Failed && t[k].errorMessage == TryError(fx)))
  {
    var job := st.jobs[a.jobId];
    RunFollowsProtocol(st, a, fx);
    ProtocolStatuses(a, job.createdBy, ElapsedSince(job.startedAt, st.clock + 1), fx);
  }

  /** `WorkerStatuses`, stated of the protocol trace. */
  lemma ProtocolStatuses(a: DownloadArgs, createdBy: string, duration: Option<int>, fx: Effects)
    ensures var t := ProtocolTrace(a, createdBy, duration, fx);
      && |t| >= 1 && t[0] == StatusWrite(Running, None)
      && (forall k :: 0 <= k < |t| && t[k].StatusWrite? ==>
            || (k == 0 && t[k].status == Running)
            || t[k] == StatusWrite(Completed, None)
            || (t[k].status == Failed && t[k].errorMessage == TryError(fx)))
  {
    var t := ProtocolTrace(a, createdBy, duration, fx);
    var h := HappyTrace(a, createdBy, duration);
    var n := TryCalls(fx);
    assert forall k :: 0 <= k < n ==> t[k] == h[k];
    forall k | n <= k < |t| && t[k].StatusWrite?
      ensures t[k].status == Failed && t[k].errorMessage == TryError(fx)
    {
      assert TryError(fx).Some?;
      assert t[k] == FailureTail(a, TryError(fx).value)[k - n];
    }
  }
}

=== FILE: models.dfy ===
/** The request and response records of the service (models.py): the job
    status vocabulary, the download request with its defaults, and the
    response shapes returned by the job endpoints. */
module Models {
  import opened Base

  /** The five job states. Each is stored and transmitted as its string tag. */
  datatype JobStatus = Pending | Running | Completed | Failed | Cancelled {

    /** The enum member's `.value`. */
    function Value(): string {
      match this
      case Pending => "pending"
      case Running => "running"
      case Completed => "completed"
      case Failed => "failed"
      case Cancelled => "cancelled"
    }

    /** The states that stamp `completed_at` when written. */
    predicate IsTerminal() {
      Completed? || Failed? || Cancelled?
    }
  }

  /** `JobStatus(tag)`: the member whose value is `tag`, or `None` where the
      enum constructor raises `ValueError`. */
  function ParseStatus(tag: string): (r: Option<JobStatus>)
    ensures r.Some? ==> r.value.Value() == tag
    ensures r.None? ==> forall s: JobStatus :: s.Value() != tag
  {
    if tag == "pending" then Some(Pending)
    else if tag == "running" then Some(Running)
    else if tag == "completed" then Some(Completed)
    else if tag == "failed" then Some(Failed)
    else if tag == "cancelled" then Some(Cancelled)
    else None
  }

  /** A status survives being stored as its tag and read back. */
  lemma StatusRoundTrip(s: JobStatus)
    ensures ParseStatus(s.Value()) == Some(s)
  {
  }

  /** The five tags are pairwise distinct, and they are the only tags that parse. */
  lemma StatusTags(s: JobStatus, t: JobStatus, tag: string)
    ensures s.Value() == t.Value() ==> s == t
    ensures ParseStatus(tag).Some? <==> tag in {"pending", "running", "completed", "failed", "cancelled"}
  {
  }

  /** The body of `POST /download`. `outputPath` is optional; the other
      fields are required, except `dataTypes`, which has a default. */
  datatype DownloadRequest = DownloadRequest(
    exchange: string,
    dataTypes: seq<string>,
    symbols: seq<string>,
    startDate: string,
    endDate: string,
    outputPath: Option<string>)

  const DefaultDataTypes: seq<string> := ["trades"]

  /** Builds a request the way the body validator does: a `data_types` field
      left out of the body becomes `["trades"]`, one given is kept as given
      (even when empty), and the required fields are copied. */
  function NewDownloadRequest(
    exchange: string, symbols: seq<string>, startDate: string, endDate: string,
    dataTypes: Option<seq<string>>, outputPath: Option<string>): (r: DownloadRequest)
    ensures dataTypes.None? ==> r.dataTypes == ["trades"]
    ensures dataTypes.Some? ==> r.dataTypes == dataTypes.value
    ensures r.outputPath == outputPath
    ensures r.exchange == exchange && r.symbols == symbols
    ensures r.startDate == startDate && r.endDate == endDate
  {
    DownloadRequest(exchange, dataTypes.GetOr(DefaultDataTypes), symbols, startDate, endDate, outputPath)
  }

  /** The full projection of a job. Timestamps are logical clock readings. */
  datatype JobResponse = JobResponse(
    id: int,
    status: JobStatus,
    exchange: string,
    dataTypes: seq<string>,
    symbols: seq<string>,
    startDate: string,
    endDate: string,
    outputPath: string,
    createdAt: nat,
    startedAt: Option<nat>,
    completedAt: Option<nat>,
    errorMessage: Option<string>,
    createdBy: string)

  datatype JobListResponse = JobListResponse(jobs: seq<JobResponse>, total: int)

  datatype JobSubmitResponse = JobSubmitResponse(jobId: int, message: string, status: JobStatus)
}

=== FILE: notifier.dfy ===
/** The notification texts and the best-effort send
    (app/telegram_notifier.py). The chat transport is abstract: what it did
    with one message is a `Delivery` value. */
module Notifier {
  import opened Base
  import opened Text

  /** How many symbols a notification lists before summarising the rest. */
  const MaxShownSymbols: nat := 3

  /** How many characters of an error a failure notification shows. */
  const MaxErrorLength: nat := 200

  /** What the chat transport did with a message: delivered it, raised a
      `TelegramError`, or raised some other exception. */
  datatype Delivery = Delivered | TelegramError(msg: string) | OtherError(msg: string)

  /** `send_message`: true when delivered, false when the transport raised a
      `TelegramError` (which is caught); any other exception reaches the caller. */
  function SendMessage(d: Delivery): (r: Call<bool>)
    ensures r.Threw? <==> d.OtherError?
    ensures r.Threw? ==> r.msg == d.msg
    ensures r.Returned? ==> (r.value <==> d.Delivered?)
  {
    match d
    case Delivered => Returned(true)
    case TelegramError(_) => Returned(false)
    case OtherError(m) => Threw(m)
  }

  /** A `notify_job_*` call as seen by its caller: it discards the boolean,
      so it either returns or passes on what `send_message` raised. */
  function Notify(d: Delivery): (r: Outcome)
    ensures r.Err? <==> d.OtherError?
    ensures r.Err? ==> r.msg == d.msg
  {
    match SendMessage(d)
    case Returned(_) => Ok
    case Threw(m) => Err(m)
  }

  // ---------------------------------------------------------------------
  // Symbol list and error truncation

  /** The " (+N more)" suffix for `hidden` symbols left out. */
  function MoreSuffix(hidden: nat): string {
    " (+" + NatText(hidden) + " more)"
  }

  /** The symbol list as every notification renders it: the first three
      joined by ", ", then a count of the rest when there are more. */
  function SymbolsText(symbols: seq<string>): string {
    var shown := if |symbols| <= MaxShownSymbols then symbols else symbols[..MaxShownSymbols];
    var text := Join(shown, ", ");
    if |symbols| > MaxShownSymbols then text + MoreSuffix(|symbols| - MaxShownSymbols) else text
  }

  /** `r` is `shown`, then " (+", a numeral in `str()` form that reads back
      as `n`, then " more)". */
  predicate CountedAfter(r: string, shown: string, n: nat) {
    && |r| >= |shown| + 9
    && r[..|shown|] == shown
    && r[|shown|..|shown| + 3] == " (+"
    && r[|r| - 6..] == " more)"
    && AllDigits(r[|shown| + 3..|r| - 6])
    && (|r| - 6 - (|shown| + 3) > 1 ==> r[|shown| + 3] != '0')
    && ParseNat(r[|shown| + 3..|r| - 6]) == n
  }

  /** Up to three symbols are listed in full. Beyond that the text is the
      first three, then " (+", a numeral, " more)"; reading the numeral back
      gives the number of symbols left out. */
  lemma SymbolsTextShape(symbols: seq<string>)
    ensures |symbols| <= 3 ==> SymbolsText(symbols) == Join(symbols, ", ")
    ensures |symbols| > 3 ==>
      CountedAfter(SymbolsText(symbols), Join(symbols[..3], ", "), |symbols| - 3)
  {
    if |symbols| > 3 {
      var shown := Join(symbols[..3], ", ");
      assert SymbolsText(symbols) == shown + MoreSuffix(|symbols| - 3);
      SuffixShape(shown, |symbols| - 3);
    }
  }

  /** The suffix for `n` hidden symbols has the counted shape. */
  lemma SuffixShape(shown: string, n: nat)
    ensures CountedAfter(shown + MoreSuffix(n), shown, n)
  {
    var r := shown + MoreSuffix(n);
    ConcatParts(shown, " (+", NatText(n), " more)");
    assert r[|shown| + 3..|r| - 6] == NatText(n);
    ParseNatText(n);
  }

  /** Each of four concatenated pieces can be cut back out of the whole. */
  lemma ConcatParts(a: string, b: string, c: string, d: string)
    ensures var r := a + b + c + d;
      && r[..|a|] == a
      && r[|a|..|a| + |b|] == b
      && r[|a| + |b|..|r| - |d|] == c
      && r[|r| - |d|..] == d
  {
  }

  /** Five symbols show as the first three and "(+2 more)". */
  lemma SymbolsTextExample()
    ensures SymbolsText(["A", "B", "C", "D", "E"]) == "A, B, C (+2 more)"
  {
    var s := ["A", "B", "C", "D", "E"];
    assert s[..3] == ["A", "B", "C"];
    assert Join(["A", "B", "C"], ", ") == "A, B, C";
    assert NatText(2) == "2";
  }

  /** The error as a failure notification shows it: unchanged up to 200
      characters, otherwise its first 200 characters followed by "...". */
  function TruncateError(error: string): (r: string)
    ensures |error| <= 200 ==> r == error
    ensures |error| > 200 ==> |r| == 203 && r[..200] == error[..200] && r[200..] == "..."
    ensures |r| <= 203
  {
    if |error| > MaxErrorLength then error[..MaxErrorLength] + "..." else error
  }

  // ---------------------------------------------------------------------
  // Message templates

  const StartedHeader: string := "\U{1F680} <b>Download Started</b>\n\n"
  const CompletedHeader: string := "\U{2705} <b>Download Completed</b>\n\n"
  const FailedHeader: string := "\U{274C} <b>Download Failed</b>\n\n"

  function JobIdLine(jobId: int): string {
    "<b>Job ID:</b> " + IntText(jobId) + "\n"
  }

  function ExchangeLine(exchange: string): string {
    "<b>Exchange:</b> " + exchange + "\n"
  }

  /** The symbols line, without a line break after it. */
  function SymbolsField(symbols: seq<string>): string {
    "<b>Symbols:</b> " + SymbolsText(symbols)
  }

  function DateRangeLine(startDate: string, endDate: string): string {
    "<b>Date Range:</b> " + startDate + " to " + endDate + "\n"
  }

  function RequesterLine(createdBy: string): string {
    "<b>Requested by:</b> " + createdBy
  }

  function ErrorLine(error: string): string {
    "<b>Error:</b> " + TruncateError(error)
  }

  /** `notify_job_started`'s message. */
  function StartedMessage(
    jobId: int, exchange: string, symbols: seq<string>,
    startDate: string, endDate: string, createdBy: string): string
  {
    StartedHeader + JobIdLine(jobId) + ExchangeLine(exchange) + SymbolsField(symbols) + "\n"
    + DateRangeLine(startDate, endDate) + RequesterLine(createdBy)
  }

  /** The duration line, present only for a duration that is set and
      non-zero (a falsy `0.0` prints nothing). */
  function DurationLine(duration: Option<int>): (r: string)
    ensures r == "" <==> duration.None? || duration == Some(0)
  {
    match duration
    case Some(d) => if d != 0 then "\n<b>Duration:</b> " + IntText(d) + " minutes" else ""
    case None => ""
  }

  /** `notify_job_completed`'s message. */
  function CompletedMessage(jobId: int, exchange: string, symbols: seq<string>, duration: Option<int>): string {
    CompletedHeader + JobIdLine(jobId) + ExchangeLine(exchange) + SymbolsField(symbols) + DurationLine(duration)
  }

  /** `notify_job_failed`'s message. */
  function FailedMessage(jobId: int, exchange: string, symbols: seq<string>, error: string): string {
    FailedHeader + JobIdLine(jobId) + ExchangeLine(exchange) + SymbolsField(symbols) + "\n"
    + ErrorLine(error)
  }

  /** A notification as the worker asks for it: which `notify_job_*` method
      it calls, with that call's arguments. */
  datatype Notice =
    | StartedNotice(jobId: int, exchange: string, symbols: seq<string>,
                    startDate: string, endDate: string, createdBy: string)
    | CompletedNotice(jobId: int, exchange: string, symbols: seq<string>, duration: Option<int>)
    | FailedNotice(jobId: int, exchange: string, symbols: seq<string>, error: string)
  {
    /** The message the call sends. */
    function Text(): string {
      match this
      case StartedNotice(id, ex, syms, first, last, who) => StartedMessage(id, ex, syms, first, last, who)
      case CompletedNotice(id, ex, syms, d) => CompletedMessage(id, ex, syms, d)
      case FailedNotice(id, ex, syms, e) => FailedMessage(id, ex, syms, e)
    }
  }

  /** The started message names the job, the exchange, the rendered symbols,
      both dates and the requester, after its header. */
  lemma StartedMessageFields(
    jobId: int, exchange: string, symbols: seq<string>,
    startDate: string, endDate: string, createdBy: string)
    ensures var m := StartedMessage(jobId, exchange, symbols, startDate, endDate, createdBy);
      && m[..|StartedHeader|] == StartedHeader
      && Occurs(JobIdLine(jobId), m)
      && Occurs(ExchangeLine(exchange), m)
      && Occurs(SymbolsField(symbols), m)
      && Occurs(DateRangeLine(startDate, endDate), m)
      && Occurs(RequesterLine(createdBy), m)
  {
    var h, a, b, c := StartedHeader, JobIdLine(jobId), ExchangeLine(exchange), SymbolsField(symbols);
    var d, e := DateRangeLine(startDate, endDate), RequesterLine(createdBy);
    OccursInFive(h, a, b, c + "\n", d, e);
    OccursSuffix(h + a + b, c);
    OccursExtend(c, h + a + b + c, "\n");
    OccursExtend(c, h + a + b + c + "\n", d);
    OccursExtend(c, h + a + b + c + "\n" + d, e);
    assert h + a + b + c + "\n" == h + a + b + (c + "\n");
  }

  /** Each part of a five-part concatenation occurs in it. */
  lemma OccursInFive(h: string, a: string, b: string, c: string, d: string, e: string)
    ensures var m := h + a + b + c + d + e;
      && m[..|h|] == h
      && Occurs(a, m) && Occurs(b, m) && Occurs(d, m) && Occurs(e, m)
  {
    OccursSuffix(h, a);
    OccursExtend(a, h + a, b);
    OccursExtend(a, h + a + b, c);
    OccursExtend(a, h + a + b + c, d);
    OccursExtend(a, h + a + b + c + d, e);
    OccursSuffix(h + a, b);
    OccursExtend(b, h + a + b, c);
    OccursExtend(b, h + a + b + c, d);
    OccursExtend(b, h + a + b + c + d, e);
    OccursSuffix(h + a + b + c, d);
    OccursExtend(d, h + a + b + c + d, e);
    OccursSuffix(h + a + b + c + d, e);
  }

  /** The completed message ends with the symbols line when there is no
      duration to show, and with the duration line otherwise. */
  lemma CompletedMessageDuration(jobId: int, exchange: string, symbols: seq<string>, duration: Option<int>)
    ensures var m := CompletedMessage(jobId, exchange, symbols, duration);
      var base := CompletedHeader + JobIdLine(jobId) + ExchangeLine(exchange) + SymbolsField(symbols);
      && m[..|base|] == base
      && (duration.None? || duration == Some(0) ==> m == base)
      && (duration.Some? && duration.value != 0 ==>
            m[|base|..] == "\n<b>Duration:</b> " + IntText(duration.value) + " minutes")
  {
  }

  /** The failed message ends with the error as truncated, so it carries the
      whole error when that is at most 200 characters long. */
  lemma FailedMessageCarriesError(jobId: int, exchange: string, symbols: seq<string>, error: string)
    ensures var m := FailedMessage(jobId, exchange, symbols, error);
      && Occurs(ErrorLine(error), m)
      && m[|m| - |TruncateError(error)|..] == TruncateError(error)
      && (|error| <= 200 ==> Occurs(error, m))
  {
    var e := TruncateError(error);
    var pre := FailedHeader + JobIdLine(jobId) + ExchangeLine(exchange) + SymbolsField(symbols) + "\n";
    var errorTag := "<b>Error:</b> ";
    assert FailedMessage(jobId, exchange, symbols, error) == pre + ErrorLine(error);
    OccursSuffix(pre, ErrorLine(error));
    assert pre + ErrorLine(error) == (pre + errorTag) + e;
    OccursSuffix(pre + errorTag, e);
  }

  /** All three templates render the symbol list the same way. */
  lemma SymbolsRenderedAlike(
    jobId: int, exchange: string, symbols: seq<string>,
    startDate: string, endDate: string, createdBy: string, duration: Option<int>, error: string)
    ensures Occurs(SymbolsField(symbols), StartedMessage(jobId, exchange, symbols, startDate, endDate, createdBy))
    ensures Occurs(SymbolsField(symbols), CompletedMessage(jobId, exchange, symbols, duration))
    ensures Occurs(SymbolsField(symbols), FailedMessage(jobId, exchange, symbols, error))
  {
    StartedMessageFields(jobId, exchange, symbols, startDate, endDate, createdBy);
    var c := SymbolsField(symbols);
    var pre := CompletedHeader + JobIdLine(jobId) + ExchangeLine(exchange);
    OccursSuffix(pre, c);
    OccursExtend(c, pre + c, DurationLine(duration));
    var pre' := FailedHeader + JobIdLine(jobId) + ExchangeLine(exchange);
    OccursSuffix(pre', c);
    OccursExtend(c, pre' + c, "\n");
    OccursExtend(c, pre' + c + "\n", ErrorLine(error));
  }
}

=== FILE: scenarios.dfy ===
/** Whole-service scenarios: a submission followed by its worker run, and
    the read handlers on a populated store. */
module Scenarios {
  import opened Base
  import opened Text
  import opened Models
  import opened Config
  import opened Database
  import opened Notifier
  import opened Downloader
  import opened Api

  /** Effects under which every external call succeeds. */
  function AllSucceed(): Effects {
    Effects(Ok, Delivered, Ok, Ok, Ok, Delivered, Ok, Delivered)
  }

  /** The binance request of the scenarios: two symbols, one day, default
      data types, no output path. */
  function BinanceRequest(): (r: DownloadRequest)
    ensures r.outputPath.None? && r.dataTypes == ["trades"]
  {
    NewDownloadRequest("binance", ["BTC-USDT", "ETH-USDT"], "2024-01-01", "2024-01-02", None, None)
  }

  /** Submitting the binance request on an open service stores a PENDING
      job under the default output path; when its run succeeds the job ends
      COMPLETED, started before it completed, with no error recorded. */
  lemma BinanceSubmitThenSucceed(st: Store, username: string)
    requires Valid(st) && username != ""
    ensures var sub := SubmitDownload(DefaultSettings(), st, BinanceRequest(), Some(username), None, Ok);
      && sub.result.Success?
      && var id := sub.result.value.task.jobId;
      && ParseStatus(sub.store.jobs[id].status) == Some(Pending)
      && sub.store.jobs[id].outputPath == "./datasets"
      && var done := DownloadData(sub.store, sub.result.value.task, AllSucceed()).store.jobs[id];
      && ParseStatus(done.status) == Some(Completed)
      && done.startedAt.Some? && done.completedAt.Some?
      && done.startedAt.value < done.completedAt.value
      && done.errorMessage.None?
  {
    DefaultsAreOpen(username);
    var sub := SubmitDownload(DefaultSettings(), st, BinanceRequest(), Some(username), None, Ok);
    SubmittedTaskMatchesRow(DefaultSettings(), st, BinanceRequest(), Some(username), None);
    FinalRow(sub.store, sub.result.value.task, AllSucceed());
  }

  /** Effects under which the transfer raises "disk full" and every other
      call succeeds. */
  function DiskFullEffects(): Effects {
    AllSucceed().(transfer := Err("disk full"))
  }

  /** Transfer raising "disk full": the run makes the four setup calls, then
      writes FAILED with that message and sends exactly one failure notice,
      which carries it; the job ends FAILED with both stamps set and the message
      recorded; nothing escapes the worker. */
  lemma DiskFull(st: Store, a: DownloadArgs)
    requires a.jobId in st.jobs
    ensures var r := DownloadData(st, a, DiskFullEffects());
      var job := r.store.jobs[a.jobId];
      && |r.trace| == 6
      && r.trace[3] == TransferOf(a)
      && r.trace[4] == StatusWrite(Failed, Some("disk full"))
      && r.trace[5] == Sent(FailedNotice(a.jobId, a.exchange, a.symbols, "disk full"))
      && Occurs("disk full", r.trace[5].notice.Text())
      && (forall k :: 0 <= k < |r.trace| && r.trace[k].StatusWrite? ==> k == 0 || k == 4)
      && (forall k :: 0 <= k < |r.trace| && r.trace[k].Sent? && r.trace[k].notice.FailedNotice? ==> k == 5)
      && r.raised.None?
      && ParseStatus(job.status) == Some(Failed)
      && job.errorMessage == Some("disk full")
      && job.startedAt.Some? && job.completedAt.Some?
  {
    DiskFullTrace(st, a);
    FailedMessageCarriesError(a.jobId, a.exchange, a.symbols, "disk full");
    RunStore(st, a, DiskFullEffects());
    DiskFullRow(st, a.jobId);
  }

  /** The trace half of `DiskFull`. */
  lemma DiskFullTrace(st: Store, a: DownloadArgs)
    requires a.jobId in st.jobs
    ensures var r := DownloadData(st, a, DiskFullEffects());
      && |r.trace| == 6
      && r.trace[3] == TransferOf(a)
      && r.trace[4] == StatusWrite(Failed, Some("disk full"))
      && r.trace[5] == Sent(FailedNotice(a.jobId, a.exchange, a.symbols, "disk full"))
      && (forall k :: 0 <= k < |r.trace| && r.trace[k].StatusWrite? ==> k == 0 || k == 4)
      && (forall k :: 0 <= k < |r.trace| && r.trace[k].Sent? && r.trace[k].notice.FailedNotice? ==> k == 5)
      && r.raised.None?
  {
    var fx := DiskFullEffects();
    var job := st.jobs[a.jobId];
    var d := ElapsedSince(job.startedAt, st.clock + 1);
    RunFollowsProtocol(st, a, fx);
    ProtocolAt(a, job.createdBy, d, fx);
    assert TryCalls(fx) == 4 && TryError(fx) == Some("disk full") && TailCalls(fx) == 2;
  }

  /** The row half of `DiskFull`, stated of `StoreAfter`. */
  lemma DiskFullRow(st: Store, id: int)
    requires id in st.jobs
    ensures var job := StoreAfter(st, id, DiskFullEffects()).jobs[id];
      && ParseStatus(job.status) == Some(Failed)
      && job.errorMessage == Some("disk full")
      && job.startedAt.Some? && job.completedAt.Some?
  {
    StatusRoundTrip(Failed);
    var fx := DiskFullEffects();
    var j1 := ApplyStatus(st.jobs[id], Running, None, st.clock);
    assert StoreAfter(st, id, fx).jobs[id] == ApplyStatus(j1, Failed, Some("disk full"), st.clock + 1) by {
      assert TryError(fx) == Some("disk full") && !CompletedWritten(fx);
      var st1 := UpdateJobStatus(st, id, Running, None);
      assert st1.jobs[id] == j1 && st1.clock == st.clock + 1;
    }
  }

  /** Asking for an unknown job answers 404 naming the id, from both single
      job endpoints. */
  lemma UnknownJobIsNotFound(cfg: Settings, st: Store, jobId: int, username: string)
    requires jobId !in st.jobs
    requires Authorize(cfg, Some(username), None).Success?
    ensures GetJobDetail(cfg, st, jobId, Some(username), None) == Failure(HttpError(404, "Job " + IntText(jobId) + " not found"))
    ensures GetJobStatus(cfg, st, jobId, Some(username), None) == Failure(HttpError(404, "Job " + IntText(jobId) + " not found"))
  {
  }

  /** The ids a list of responses carries. */
  function IdsOf(r: seq<JobResponse>): (ids: set<int>)
    ensures forall k :: 0 <= k < |r| ==> r[k].id in ids
    ensures |ids| <= |r|
  {
    if |r| == 0 then {}
    else
      var prefix := r[..|r| - 1];
      var front := IdsOf(prefix);
      assert forall k :: 0 <= k < |prefix| ==> prefix[k] == r[k];
      front + {r[|r| - 1].id}
  }

  /** Listing with a limit no larger than the number of stored jobs (say
      limit 2 against five jobs) returns exactly that many, newest first,
      with `total` equal to it, and every job left out is older than the
      last one listed. */
  lemma ListWithinStore(cfg: Settings, st: Store, username: string, limit: nat)
    requires Valid(st) && 1 <= limit <= |st.jobs|
    requires Authorize(cfg, Some(username), None).Success?
    ensures var r := ListJobs(cfg, st, Some(limit), Some(username), None);
      && r.Success? && r.value.total == limit && |r.value.jobs| == limit
      && (forall k :: 0 <= k < limit - 1 ==> r.value.jobs[k].createdAt > r.value.jobs[k + 1].createdAt)
      && forall id :: id in st.jobs && (forall k :: 0 <= k < limit ==> r.value.jobs[k].id != id) ==>
           st.jobs[id].createdAt < r.value.jobs[limit - 1].createdAt
  {
    ListFullLimit(st, limit);
    ListRecentNewestFirst(st, limit);
    ListRecentOlder(st, limit);
  }

  /** A listing whose limit does not exceed the number of stored jobs is
      full: it holds exactly `limit` jobs. */
  lemma ListFullLimit(st: Store, limit: nat)
    requires Valid(st) && limit <= |st.jobs|
    ensures |ListRecent(st, limit).jobs| == limit
  {
    var items := ListRecent(st, limit).jobs;
    ListRecentOrder(st, limit);
    ListRecentRows(st, limit);
    if |items| < limit {
      var ids := IdsOf(items);
      forall id | id in st.jobs ensures id in ids {
        var k :| 0 <= k < |items| && items[k].id == id;
      }
      SubsetCard(st.jobs.Keys, ids);
    }
  }

  lemma SubsetCard(a: set<int>, b: set<int>)
    requires a <= b
    ensures |a| <= |b|
  {
    assert b == a + (b - a);
  }
}

=== FILE: text.dfy ===
/** The string operations the service relies on, stated with Python's
    semantics: `sep.join(xs)`, `s.split(c)` for a one-character separator,
    `s.strip()` with no argument, and `str(n)` for integers.
    Strings are sequences of Unicode code points, as Python's `str` is.
 */
module Text {

  /** `sep.join(xs)`. */
  function Join(xs: seq<string>, sep: string): string
    decreases |xs|
  {
    if |xs| == 0 then ""
    else if |xs| == 1 then xs[0]
    else xs[0] + sep + Join(xs[1..], sep)
  }

  /** Index of the first `c` in `s`, or `|s|` when there is none. */
  function FirstIndex(s: string, c: char): (k: nat)
    ensures k <= |s|
    ensures forall i :: 0 <= i < k ==> s[i] != c
    ensures k < |s| ==> s[k] == c
    ensures k == |s| <==> c !in s
    decreases |s|
  {
    if |s| == 0 then 0
    else if s[0] == c then 0
    else 1 + FirstIndex(s[1..], c)
  }

  /** No string of `xs` contains `c`. */
  predicate NoneContains(xs: seq<string>, c: char) {
    forall k :: 0 <= k < |xs| ==> c !in xs[k]
  }

  /** `s.split(c)`: the pieces between occurrences of `c`. There is always at
      least one piece (`"".split(",") == [""]`), no piece contains `c`, and
      joining the pieces with `c` gives back `s`. */
  function Split(s: string, c: char): (parts: seq<string>)
    ensures |parts| >= 1
    ensures NoneContains(parts, c)
    ensures Join(parts, [c]) == s
    decreases |s|
  {
    var k := FirstIndex(s, c);
    if k == |s| then [s]
    else
      var rest := Split(s[k + 1..], c);
      assert ([s[..k]] + rest)[1..] == rest;
      assert s[..k] + [c] + s[k + 1..] == s;
      [s[..k]] + rest
  }

  lemma {:induction false} JoinAppend(xs: seq<string>, ys: seq<string>, sep: string)
    requires |xs| >= 1 && |ys| >= 1
    ensures Join(xs + ys, sep) == Join(xs, sep) + sep + Join(ys, sep)
    decreases |xs|
  {
    if |xs| == 1 {
      assert (xs + ys)[1..] == ys;
    } else {
      assert (xs + ys)[1..] == xs[1..] + ys;
      JoinAppend(xs[1..], ys, sep);
    }
  }

  /** Splitting a join on the same one-character separator gives the pieces
      back, provided no piece contains the separator. */
  lemma {:induction false} SplitJoin(xs: seq<string>, c: char)
    requires |xs| >= 1
    requires NoneContains(xs, c)
    ensures Split(Join(xs, [c]), c) == xs
    decreases |xs|
  {
    if |xs| > 1 {
      var rest := Join(xs[1..], [c]);
      assert Join(xs, [c]) == xs[0] + [c] + rest;
      assert c !in xs[0];
      SplitCons(xs[0], rest, c);
      assert NoneContains(xs[1..], c);
      SplitJoin(xs[1..], c);
      assert xs == [xs[0]] + xs[1..];
    } else {
      assert c !in xs[0];
    }
  }

  /** Splitting `a + [c] + b` with no `c` in `a` gives `a`, then the pieces
      of `b`. */
  lemma SplitCons(a: string, b: string, c: char)
    requires c !in a
    ensures Split(a + [c] + b, c) == [a] + Split(b, c)
  {
    FirstIndexAfter(a, b, c);
  }

  /** In `a + [c] + b` with no `c` in `a`, the first `c` is the one after
      `a`, and cutting there gives `a` and `b` back. */
  lemma FirstIndexAfter(a: string, b: string, c: char)
    requires c !in a
    ensures var s := a + [c] + b;
      && FirstIndex(s, c) == |a| && s[..|a|] == a && s[|a| + 1..] == b
  {
    var s := a + [c] + b;
    var k := FirstIndex(s, c);
    assert s[|a|] == c;
    assert forall m :: 0 <= m < |a| ==> s[m] == a[m];
    assert s[..|a|] == a;
    assert s[|a| + 1..] == b;
  }

  /** Splitting `a + c + b` splits `a` and `b` independently. */
  lemma SplitAppend(a: string, b: string, c: char)
    ensures Split(a + [c] + b, c) == Split(a, c) + Split(b, c)
  {
    var pa, pb := Split(a, c), Split(b, c);
    JoinAppend(pa, pb, [c]);
    NoneContainsConcat(pa, pb, c);
    SplitJoin(pa + pb, c);
  }

  lemma NoneContainsConcat(xs: seq<string>, ys: seq<string>, c: char)
    requires NoneContains(xs, c) && NoneContains(ys, c)
    ensures NoneContains(xs + ys, c)
  {
    forall k | 0 <= k < |xs + ys| ensures c !in (xs + ys)[k] {
      if k < |xs| {
        assert (xs + ys)[k] == xs[k];
      } else {
        assert (xs + ys)[k] == ys[k - |xs|];
      }
    }
  }

  /** A string with no separator splits into itself alone. */
  lemma SplitNone(s: string, c: char)
    requires c !in s
    ensures Split(s, c) == [s]
  {
    SplitJoin([s], c);
  }

  // ---------------------------------------------------------------------
  // Whitespace and str.strip()

  /** Python's `str.isspace()` for one code point. */
  predicate IsSpace(ch: char) {
    || '\t' <= ch <= '\r'
    || '\U{1C}' <= ch <= '\U{1F}'
    || ch == ' '
    || ch == '\U{85}'
    || ch == '\U{A0}'
    || ch == '\U{1680}'
    || '\U{2000}' <= ch <= '\U{200A}'
    || ch == '\U{2028}'
    || ch == '\U{2029}'
    || ch == '\U{202F}'
    || ch == '\U{205F}'
    || ch == '\U{3000}'
  }

  predicate AllSpace(s: string) {
    forall k :: 0 <= k < |s| ==> IsSpace(s[k])
  }

  /** The characters of `s` in `[lo, hi)` are all whitespace. */
  predicate SpaceBetween(s: string, lo: int, hi: int) {
    forall k :: lo <= k < hi && 0 <= k < |s| ==> IsSpace(s[k])
  }

  /** Number of leading whitespace characters. */
  function LeadingEnd(s: string): (i: nat)
    ensures i <= |s|
    ensures SpaceBetween(s, 0, i)
    ensures i < |s| ==> !IsSpace(s[i])
    decreases |s|
  {
    if |s| == 0 || !IsSpace(s[0]) then 0
    else
      var i := 1 + LeadingEnd(s[1..]);
      assert forall k :: 1 <= k < |s| ==> s[k] == s[1..][k - 1];
      i
  }

  /** Length of `s` once trailing whitespace is removed. */
  function TrailingStart(s: string): (j: nat)
    ensures j <= |s|
    ensures SpaceBetween(s, j, |s|)
    ensures j > 0 ==> !IsSpace(s[j - 1])
    decreases |s|
  {
    if |s| == 0 || !IsSpace(s[|s| - 1]) then |s|
    else
      var j := TrailingStart(s[..|s| - 1]);
      assert forall k :: 0 <= k < |s| - 1 ==> s[k] == s[..|s| - 1][k];
      j
  }

  /** `s.strip()`: `s` minus its leading and trailing whitespace. */
  function Strip(s: string): string {
    var i := LeadingEnd(s);
    if i == |s| then s[i..i]
    else s[i..TrailingStart(s)]
  }

  /** What `Strip` returns is a slice of `s` with only whitespace around it
      and no whitespace at either end; these facts pin it down uniquely
      (`StripUnique`). */
  lemma StripShape(s: string)
    ensures var r := Strip(s);
      && (exists i, j :: 0 <= i <= j <= |s| && r == s[i..j] && SpaceBetween(s, 0, i) && SpaceBetween(s, j, |s|))
      && IsTrimmed(r)
  {
    var i := LeadingEnd(s);
    if i == |s| {
      assert Strip(s) == s[i..i];
    } else {
      var j := TrailingStart(s);
      assert Strip(s) == s[i..j];
    }
  }

  /** Stripping a string made only of whitespace leaves nothing. */
  lemma StripAllSpace(s: string)
    requires AllSpace(s)
    ensures Strip(s) == ""
  {
    assert LeadingEnd(s) == |s|;
  }

  /** `s` has no whitespace at either end. */
  predicate IsTrimmed(s: string) {
    s == [] || (!IsSpace(s[0]) && !IsSpace(s[|s| - 1]))
  }

  /** A string with no whitespace at either end strips to itself. */
  lemma StripTrimmed(s: string)
    requires IsTrimmed(s)
    ensures Strip(s) == s
  {
    var r := Strip(s);
    StripShape(s);
    var i, j :| 0 <= i <= j <= |s| && r == s[i..j] && SpaceBetween(s, 0, i) && SpaceBetween(s, j, |s|);
    assert i == 0 && j == |s|;
  }

  /** A non-blank slice with only whitespace around it is what strip returns. */
  lemma StripUnique(t: string, i: int, j: int)
    requires 0 <= i < j <= |t|
    requires SpaceBetween(t, 0, i) && SpaceBetween(t, j, |t|)
    requires !IsSpace(t[i]) && !IsSpace(t[j - 1])
    ensures Strip(t) == t[i..j]
  {
    var i', j' := LeadingEnd(t), TrailingStart(t);
    assert i' == i;
    assert j' == j;
  }

  /** Whitespace added around a trimmed string is exactly what strip removes. */
  lemma StripPadded(left: string, s: string, right: string)
    requires AllSpace(left) && AllSpace(right) && IsTrimmed(s)
    ensures Strip(left + s + right) == s
  {
    var t := left + s + right;
    var a, b := |left|, |left| + |s|;
    assert forall m :: 0 <= m < a ==> t[m] == left[m];
    assert forall m :: b <= m < |t| ==> t[m] == right[m - b];
    if s == [] {
      assert AllSpace(t);
      StripAllSpace(t);
    } else {
      assert t[a] == s[0] && t[b - 1] == s[|s| - 1];
      StripUnique(t, a, b);
      assert t[a..b] == s;
    }
  }

  // ---------------------------------------------------------------------
  // Decimal rendering, as `str(n)` and an f-string `{n}` do for an int

  predicate IsDigit(ch: char) {
    '0' <= ch <= '9'
  }

  predicate AllDigits(s: string) {
    forall k :: 0 <= k < |s| ==> IsDigit(s[k])
  }

  function DigitChar(d: nat): (ch: char)
    requires d < 10
    ensures IsDigit(ch) && (ch as int) - ('0' as int) == d
  {
    ('0' as int + d) as char
  }

  /** The value of a string of decimal digits. */
  function ParseNat(s: string): nat
    requires AllDigits(s)
    decreases |s|
  {
    if |s| == 0 then 0
    else ParseNat(s[..|s| - 1]) * 10 + ((s[|s| - 1] as int) - ('0' as int))
  }

  /** The decimal numeral of `n`: at least one digit, no leading zero. */
  function NatText(n: nat): (r: string)
    ensures |r| >= 1 && AllDigits(r)
    ensures |r| > 1 ==> r[0] != '0'
    decreases n
  {
    if n < 10 then [DigitChar(n)]
    else NatText(n / 10) + [DigitChar(n % 10)]
  }

  /** Reading a numeral back gives the number it was made from. */
  lemma {:induction false} ParseNatText(n: nat)
    ensures ParseNat(NatText(n)) == n
    decreases n
  {
    var r := NatText(n);
    if n >= 10 {
      assert r[..|r| - 1] == NatText(n / 10);
      ParseNatText(n / 10);
    }
  }

  /** `str(n)` for any integer: a minus sign before the magnitude when negative. */
  function IntText(n: int): (r: string)
    ensures |r| >= 1
    ensures n < 0 <==> r[0] == '-'
    ensures n >= 0 ==> r == NatText(n)
    ensures n < 0 ==> r[1..] == NatText(-n)
  {
    if n < 0 then "-" + NatText(-n) else NatText(n)
  }

  // ---------------------------------------------------------------------

  /** `t` occurs in `s` starting at index `k`. */
  predicate OccursAt(t: string, s: string, k: int) {
    0 <= k <= |s| - |t| && s[k..k + |t|] == t
  }

  /** `t in s` for strings: `t` occurs somewhere in `s`. */
  predicate Occurs(t: string, s: string) {
    exists k | 0 <= k <= |s| - |t| :: OccursAt(t, s, k)
  }

  /** A string occurs at the end of any string that ends with it. */
  lemma OccursSuffix(u: string, t: string)
    ensures Occurs(t, u + t)
    ensures (u + t)[|u + t| - |t|..] == t
  {
    assert (u + t)[|u|..|u| + |t|] == t;
    assert OccursAt(t, u + t, |u|);
  }

  /** An occurrence survives adding text on either side. */
  lemma OccursExtend(t: string, s: string, u: string)
    requires Occurs(t, s)
    ensures Occurs(t, s + u) && Occurs(t, u + s)
  {
    var k :| 0 <= k <= |s| - |t| && OccursAt(t, s, k);
    assert (s + u)[k..k + |t|] == s[k..k + |t|];
    assert OccursAt(t, s + u, k);
    assert (u + s)[k + |u|..k + |u| + |t|] == s[k..k + |t|];
    assert OccursAt(t, u + s, k + |u|);
  }
}
